=== FILE: README.md ===
# publisher_saas core, modelled in Dafny

This project models three parts of the publisher service and proves properties about them.

- **The PostgreSQL helper layer** (`business/data/dbsql/pgx/pgx.go`):
  - `Open` and the connection parameters it derives from a `Config`;
  - the `StatusCheck` readiness probe, which pings with linear backoff under a deadline and then makes one forced round trip;
  - the mutation helpers `NamedExecContext`/`ExecContext`;
  - the query helpers `namedQuerySlice` and `namedQueryStruct`, with their three exported wrappers each;
  - the SQLSTATE-to-sentinel error classification;
  - the `queryString` log renderer.
- **The two HTTP status recorders** (`statuswriter.StatusRecorder` and `web.StatusRecorder`) and `web.Respond`.
- **The per-line logic of the `logfmt` tool**, lifted into a pure function over an already-decoded record.

Everything is modelled with immutable datatypes and pure functions:

- A recorder is a record value. A sequence of method calls is folded over it by `Run`.
- The underlying `http.ResponseWriter` is a header map plus the list of calls forwarded to it (`HttpWriter.Writer`). A forwarded status line carries the header map as it stood when the line was sent, because a header changed after `WriteHeader` is never sent.
- The database driver and `sqlx` are a `Driver` record of oracle functions.
- A result cursor is the sequence of rows `rows.Next()` delivers. Each row either decodes or fails with a cause. The cursor also carries the iteration error, if any, that cut it short.
- Time is an abstract millisecond clock. A ping advances it by the ping's duration; a backoff sleep advances it by the sleep. A context has expired once the clock reaches its deadline.
- The k-th `db.Ping()` result and the `SELECT true` round trip are oracles indexed by attempt and by time. Each gives an error, if any, and a duration.

The modules are:

- `Wrappers` (`Option`, `Result`);
- `Text` (the Go `strings` functions used);
- `DbErrors`, `DbConnect`, `QueryRender` and `DbExec` (pgx.go);
- `HttpWriter`, `StatusWriter` and `WebResponse` (the recorders);
- `LogFmt` (the log tool).

## Model

| member | source | states |
|---|---|---|
| DbErrors.ClassifyExec | business/data/dbsql/pgx/pgx.go:129-139 | A mutation error becomes `ErrUndefinedTable` exactly when it is a PgError with code 42P01. It becomes `ErrDBDuplicatedEntry` exactly when the code is 23505. Any other error is returned unchanged. |
| DbErrors.ClassifyQuery | business/data/dbsql/pgx/pgx.go:196-200 | A query error becomes `ErrUndefinedTable` exactly when it is a PgError with code 42P01. Every other error, 23505 included, is returned unchanged. |
| DbErrors.ClassificationAsymmetry | business/data/dbsql/pgx/pgx.go:129-139 | The mutation and query tables agree exactly when the error is not a 23505 PgError. Neither table produces not-found or a deadline error. Two PgErrors with the same code are mapped by either table to the same sentinel, or both are left unclassified, each carrying its own message. |
| DbConnect.ConnectionParams | business/data/dbsql/pgx/pgx.go:47-57 | The parameters are exactly sslmode, timezone and an optional search_path. sslmode is "disable" iff TLS is disabled, otherwise "require". timezone is always "utc". search_path is present iff the schema is non-empty, and then equals it. |
| DbConnect.Open | business/data/dbsql/pgx/pgx.go:46-75 | Open fails iff the driver rejects the URL, and then returns the driver's error. Otherwise the pool has a postgres URL built from the user, password, host, database name and those parameters, and the configured idle/open limits. |
| DbConnect.EffectiveDeadline | business/data/dbsql/pgx/pgx.go:80-84 | The caller's deadline is kept when there is one. Otherwise the deadline is one second (1000 ms) after the start. |
| DbConnect.PingLoop | business/data/dbsql/pgx/pgx.go:86-96 | The loop ends on a successful ping or on finding the context expired after a sleep, and on nothing else. Every earlier ping failed. There is one sleep and one wake-up per failed attempt. On expiry, the last wake-up is at or after the deadline. |
| DbConnect.SleepSchedule | business/data/dbsql/pgx/pgx.go:92 | After the n-th failed attempt the probe sleeps n × 100 ms. |
| DbConnect.WakeSchedule | business/data/dbsql/pgx/pgx.go:92-95 | Each wake-up comes at least one more backoff step after the start than the previous one. Every wake-up before the loop ends came before the deadline. |
| DbConnect.ClockSchedule | business/data/dbsql/pgx/pgx.go:87-96 | Time passes only by pinging and sleeping. Each wake-up comes exactly one ping and that attempt's sleep after the previous wake-up, or after the start. A successful loop ends exactly one ping after its last wake-up. |
| DbConnect.ProbeTimeline | business/data/dbsql/pgx/pgx.go:86-96 | After the n-th failed ping the clock advances by exactly that ping plus n × 100 ms before the context is checked. A successful probe stops exactly one ping after its last wake-up. |
| DbConnect.StatusCheck | business/data/dbsql/pgx/pgx.go:79-107 | The result is the deadline error when the clock reached the deadline while backing off or by the end of the successful ping. Otherwise it is the deadline error iff the `SELECT true` round trip, which runs under the same context, has not finished by the deadline. In every other case the ping that ended the loop succeeded and all earlier pings failed, and the result is nil iff the round trip succeeded, and its error otherwise. Sleeps are 100, 200, 300 ms and so on. |
| DbConnect.UnreachableHostTimesOut | business/data/dbsql/pgx/pgx.go:86-96 | When every ping fails, the probe ends with the deadline error after exactly one sleep per attempt. If it started before the deadline, it stops less than the last ping plus the last sleep (attempts × 100 ms) after the deadline. |
| DbConnect.LoopOvershoot | business/data/dbsql/pgx/pgx.go:86-96 | A ping loop started before the deadline ends less than its last ping after the deadline, plus its last sleep when it expired. |
| DbConnect.ProbeOvershoot | business/data/dbsql/pgx/pgx.go:79-96 | A probe started before its deadline stops within that same bound: one ping, plus one sleep when it expired. |
| DbConnect.ExpiredContextPingsOnce | business/data/dbsql/pgx/pgx.go:86-99 | A context already past its deadline still pings once, and the probe then reports expiry. |
| DbConnect.BackoffTotal | business/data/dbsql/pgx/pgx.go:92 | Linear backoff: n sleeps starting at attempt `first` add up to 100·first·n + 50·n·(n−1) ms. |
| DbConnect.ProbeSleepTotal | business/data/dbsql/pgx/pgx.go:87-96 | A probe that slept n times slept 50·n·(n+1) ms in all. |
| QueryRender.RenderedLiteral | business/data/dbsql/pgx/pgx.go:296-303 | A string argument is displayed as its text between single quotes, and so is a byte slice. Any other value is displayed as its `%v` text. This holds whatever the text is. |
| QueryRender.Substitute | business/data/dbsql/pgx/pgx.go:294-305 | A template without any `?` is left unchanged, whatever the arguments. |
| QueryRender.SubstituteSkipsPrefix | business/data/dbsql/pgx/pgx.go:294-305 | Text before the first `?` is never touched: substituting into `p + y`, with no `?` in `p`, gives `p` followed by the substitution into `y`. |
| QueryRender.SubstituteStep | business/data/dbsql/pgx/pgx.go:294-305 | With no `?` before the first marker and none in the first literal, the first marker becomes the first argument's literal and the rest of the template is filled by the remaining arguments. |
| QueryRender.OneLine | business/data/dbsql/pgx/pgx.go:307-308 | After deleting tabs and turning newlines into spaces, no tab or newline is left. Every character is a space or a character of the input. |
| QueryRender.Tidy | business/data/dbsql/pgx/pgx.go:307-310 | The cleaned string has no tab and no newline and neither starts nor ends with a space. Every character in it is a space or a character of the input. |
| QueryRender.QueryString | business/data/dbsql/pgx/pgx.go:288-311 | `queryString` never fails. A binding failure is displayed as its error message. Otherwise the display is one line with no surrounding spaces. |
| QueryRender.SubstituteConsumesMarkers | business/data/dbsql/pgx/pgx.go:294-305 | Suppose no literal contains `?` and there are at least as many markers as arguments. Then each argument consumes exactly one `?` marker. |
| QueryRender.RenderResolvesAllMarkers | business/data/dbsql/pgx/pgx.go:288-311 | With one argument per marker and no `?` in any literal, the displayed query has no `?` left. |
| QueryRender.CleanTemplateUnchanged | business/data/dbsql/pgx/pgx.go:288-311 | A template that is already one clean line and has no arguments is displayed unchanged. |
| QueryRender.MarkerInsideValueIsReplaced | business/data/dbsql/pgx/pgx.go:304 | Each value replaces the first `?` of the current string, which may lie inside an earlier value. Binding `"?,?"` to the string `"?"` and then `1` displays `'1',?`. |
| QueryRender.MarkerInsideLiteral | business/data/dbsql/pgx/pgx.go:293-305 | For every template and arguments: when the first argument's literal holds a `?` and no `?` precedes the first marker, the second argument replaces the `?` inside that literal, not the template's next marker. |
| DbExec.NamedExecContext | business/data/dbsql/pgx/pgx.go:117-142 | The result is nil iff the execution succeeded. 42P01 becomes `ErrUndefinedTable` (iff) and 23505 becomes `ErrDBDuplicatedEntry` (iff). Any other error is returned unchanged. The log level is 5 for the empty-struct source and 4 otherwise. The logged query is `queryString`'s rendering. |
| DbExec.ExecContext | business/data/dbsql/pgx/pgx.go:111-113 | `ExecContext` is `NamedExecContext` with the empty struct, so it always logs at level 5. |
| DbExec.PlainModeUsesNamedQuery | business/data/dbsql/pgx/pgx.go:192-193 | In plain mode the cursor is exactly what `sqlx.NamedQueryContext` returns. Replacing the `IN` expansion, the rebinding or `QueryxContext` changes nothing. |
| DbExec.InModeBypassesNamedQuery | business/data/dbsql/pgx/pgx.go:176-190 | In `IN` mode `sqlx.NamedQueryContext` is never used: replacing it changes nothing. After a successful bind and expansion, the cursor is what `QueryxContext` returns for the rebound query. |
| DbExec.BindingFailsBeforeQuery | business/data/dbsql/pgx/pgx.go:177-190 | In IN mode, a binding or IN-expansion failure is returned before any query is issued. The outcome does not depend on the query call at all. |
| DbExec.DecodeRows | business/data/dbsql/pgx/pgx.go:204-212 | Decoding succeeds iff every row decodes, and then yields exactly the rows' values in cursor order. Otherwise it fails with the first undecodable row's error. |
| DbExec.RunQuerySlice | business/data/dbsql/pgx/pgx.go:164-215 | An open failure is classified by the query table. On success, `*dest` is exactly the decoded rows in cursor order, and empty when there are none. A decode failure returns the first row's error unchanged. On any error `*dest` is untouched. |
| DbExec.QuerySlice | business/data/dbsql/pgx/pgx.go:146-148 | It binds the empty struct and runs `sqlx.NamedQueryContext` alone. The slice is then what that cursor yields, and the logged query is the empty struct's rendering. |
| DbExec.NamedQuerySlice | business/data/dbsql/pgx/pgx.go:153-155 | It binds the caller's data and runs `sqlx.NamedQueryContext` alone. The slice is then what that cursor yields, and the logged query is that data's rendering. |
| DbExec.NamedQuerySliceUsingIn | business/data/dbsql/pgx/pgx.go:160-162 | It binds the caller's data, expands `IN` lists and rebinds, then runs `QueryxContext` on the expanded query and arguments. A binding or expansion failure is classified like a query error. Otherwise the slice is what that cursor yields. |
| DbExec.RunQueryStruct | business/data/dbsql/pgx/pgx.go:236-285 | An open failure is classified by the query table. A cursor with no rows gives `ErrDBNotFound`. Otherwise only the first row is decoded: into `dest` when it decodes, or its error is returned unchanged. On any error `dest` is untouched. |
| DbExec.QueryStruct | business/data/dbsql/pgx/pgx.go:219-221 | It binds the empty struct and runs `sqlx.NamedQueryContext` alone. The record is then that cursor's first row, and the logged query is the empty struct's rendering. |
| DbExec.NamedQueryStruct | business/data/dbsql/pgx/pgx.go:225-227 | It binds the caller's data and runs `sqlx.NamedQueryContext` alone. The record is then that cursor's first row, and the logged query is that data's rendering. |
| DbExec.NamedQueryStructUsingIn | business/data/dbsql/pgx/pgx.go:232-234 | It binds the caller's data, expands `IN` lists and rebinds, then runs `QueryxContext`. A binding or expansion failure is classified like a query error. Otherwise the record is that cursor's first row. |
| DbExec.StructIsFirstOfSlice | business/data/dbsql/pgx/pgx.go:276-284 | On the same cursor, an empty successful slice means the record query reports not-found. A non-empty one means the record query yields its first element, given that a decoded row stands for the whole record (see Left out). Open failures are reported identically by both. |
| DbExec.IterationErrorIsMasked | business/data/dbsql/pgx/pgx.go:204-212 | `rows.Err()` is never consulted. A cursor cut short before its first row reads as an empty success for the slice query and as not-found for the record query. |
| DbExec.DuplicateOnlyOnMutation | business/data/dbsql/pgx/pgx.go:196-200 | Neither query helper ever reports `ErrDBDuplicatedEntry`. |
| HttpWriter.AddValues | services/publisher/pkg/statuswriter/statuswriter.go:58-60 | Adding values one by one appends them, in order, under the key. Every other key is unchanged. |
| HttpWriter.SetValue | services/publisher/pkg/web/response.go:50 | `Header().Set` leaves exactly the one value under the key. Every other key is unchanged. |
| StatusWriter.WriteHeader | services/publisher/pkg/statuswriter/statuswriter.go:26-36 | While no status is recorded, the code is recorded and forwarded once, with the header map as it stands at that moment. Afterwards nothing changes and nothing is forwarded. The only effect is a "Superfluous WriteHeader call" log line with the new and previous status. |
| StatusWriter.GetHeader | services/publisher/pkg/statuswriter/statuswriter.go:39-41 | `Header()` returns the underlying map. It changes neither `Status` nor `HeaderWrites`. |
| StatusWriter.Write | services/publisher/pkg/statuswriter/statuswriter.go:44-49 | `Status` becomes 200 only if it was 0. The bytes are forwarded unchanged, and the underlying count and error are returned. |
| StatusWriter.SetHeader | services/publisher/pkg/statuswriter/statuswriter.go:52-61 | `HeaderWrites` goes up by exactly one whatever the number of values. Each value is added under the key in order and other keys are untouched. One "Header set" line is logged. |
| StatusWriter.RunAppendsForwarded | services/publisher/pkg/statuswriter/statuswriter.go:26-61 | Over any call sequence, the underlying writer only receives appended calls: exactly those the recorder forwards, in order. |
| StatusWriter.StatusSticky | services/publisher/pkg/statuswriter/statuswriter.go:26-36 | Once a status is recorded, no call sequence changes it or forwards another status line. |
| StatusWriter.StatusIsFirstWins | services/publisher/pkg/statuswriter/statuswriter.go:26-49 | Over any call sequence, every forwarded status but the last is 0 (recording 0 leaves the recorder unset). A last non-zero forwarded status is the one finally recorded. |
| StatusWriter.HeaderWritesCountSetHeader | services/publisher/pkg/statuswriter/statuswriter.go:39-61 | Over any call sequence, `HeaderWrites` counts exactly the `SetHeader` calls. `Header()` calls do not count. |
| StatusWriter.BodyForwardedUnchanged | services/publisher/pkg/statuswriter/statuswriter.go:44-49 | The body the underlying writer receives is exactly the concatenation of the bytes passed to `Write`. |
| StatusWriter.FreshRecorderReport | services/publisher/internal/web/v1/mid/statuswriter.go:16-29 | For a recorder built fresh by the middleware, the reported `header_writes` is the number of `SetHeader` calls. The reported status is the last forwarded one when that is not 0, and every earlier forwarded status is 0. The writer received exactly the forwarded calls, and its body is the bytes written. |
| WebResponse.WriteHeader | services/publisher/pkg/web/response.go:18-24 | First call wins: it forwards the status with the header map as it stands then. Later calls neither change `Status` nor forward. |
| WebResponse.GetHeader | services/publisher/pkg/web/response.go:26-29 | Every `Header()` call adds one to `HeaderWrites` and changes nothing else. |
| WebResponse.RecorderInvariants | services/publisher/pkg/web/response.go:18-29 | Over any call sequence, `HeaderWrites` counts the `Header()` calls and the header map is unchanged. A recorded status is never changed. From an unset status, the final status is the first non-zero code passed. The codes forwarded are those up to and including that code. |
| WebResponse.Respond | services/publisher/pkg/web/response.go:32-58 | 204: the status line alone is written and nil returned, with no header touched. A marshal failure returns its error with nothing written. Otherwise Content-Type is set to application/json (other headers untouched) before the status line goes out, so the status line carries it, and then the body is sent. The write's error is returned. The recorder ends with `Status` = statusCode and `HeaderWrites` = 1. |
| WebResponse.NoContentIgnoresBody | services/publisher/pkg/web/response.go:40-43 | On 204 the outcome is the same whatever marshalling or writing would have produced, and no body byte is sent. |
| LogFmt.TraceId | services/publisher/cmd/tooling/logfmt/main.go:44-47 | The trace id is 32 `'0'` characters when `trace_id` is absent, and the `%v` of its value otherwise. |
| LogFmt.KnownKeys | services/publisher/cmd/tooling/logfmt/main.go:61-69 | Each of `method`, `path` and `remoteaddr` is shown exactly when present, and in that order. |
| LogFmt.Entries | services/publisher/cmd/tooling/logfmt/main.go:78 | There is one `k[v]: ` entry per key, in the given order, each showing the `%v` of the key's value. |
| LogFmt.FormatRecord | services/publisher/cmd/tooling/logfmt/main.go:50-83 | The printed line followed by `": "` is exactly the built string: prefix, known fields, then the remaining entries. |
| LogFmt.PiecesEndWithSeparator | services/publisher/cmd/tooling/logfmt/main.go:51-78 | Every piece written to the builder ends with `": "`, so the two characters dropped are always that separator. |
| LogFmt.PrefixLeadsLine | services/publisher/cmd/tooling/logfmt/main.go:51-58 | The line starts with `service: ts: level: traceID: caller: msg`, in that fixed order. It also has the trailing `": "` whenever anything follows. |
| LogFmt.TailCoversRemainingKeys | services/publisher/cmd/tooling/logfmt/main.go:72-79 | Every key outside the nine reserved keys appears exactly once in the tail. No reserved key does. |
| LogFmt.TailIndependentOfOrder | services/publisher/cmd/tooling/logfmt/main.go:72-79 | Whatever the map's iteration order, the keys shown after the fixed prefix are the same multiset. |
| LogFmt.ProcessLine | services/publisher/cmd/tooling/logfmt/main.go:26-84 | A line that does not decode into a map is printed verbatim iff no filter is set. The line `null` decodes, as the empty record. A record is printed iff no filter is set or its lower-cased service equals the lower-cased filter. A printed record is its formatted line. |
| Text.ReplaceFirst | business/data/dbsql/pgx/pgx.go:304 | Only the first `?` is replaced by the value. A string without one is unchanged. |
| Text.ReplaceFirstCount | business/data/dbsql/pgx/pgx.go:304 | One replacement removes one marker and adds the value's own markers. |
| Text.DeleteAll | business/data/dbsql/pgx/pgx.go:307 | No tab is left. Every other character keeps its multiplicity. |
| Text.DeleteAllConcat | business/data/dbsql/pgx/pgx.go:307 | Deleting tabs works piecewise over a concatenation, so the characters kept stay in their original order. |
| Text.ReplaceFirstSkipsPrefix | business/data/dbsql/pgx/pgx.go:304 | A prefix without `?` is passed over: only the rest of the string can change. |
| Text.ReplaceFirstInPrefix | business/data/dbsql/pgx/pgx.go:304 | When the first part of a string holds a `?`, the replacement happens there and the rest is kept. |
| Text.ReplaceAll | business/data/dbsql/pgx/pgx.go:308 | Each newline becomes a space, position by position. All other characters are unchanged. |
| Text.Trim | business/data/dbsql/pgx/pgx.go:310 | The trimmed string neither starts nor ends with a space and holds only characters of the input. |
| Text.TrimSlice | business/data/dbsql/pgx/pgx.go:310 | The trimmed string is a contiguous slice of the input. |
| Text.TrimCutsOnly | business/data/dbsql/pgx/pgx.go:310 | Everything cut off on either side is a space. |
| Text.ToLower | services/publisher/cmd/tooling/logfmt/main.go:39 | Lower-casing maps each character independently and keeps the length. |

## Left out

- The driver, `sqlx.Named`/`In`/`Rebind`, `NamedExecContext`, `NamedQueryContext`, `QueryxContext` and `StructScan` are oracles. How they bind names, expand `IN` lists, rebind placeholders or decode columns is not modelled. Their results are inputs.
- `fmt`'s `%v`/`%s` rendering and JSON encoding and decoding are inputs. A `Param` or a `LogFmt.Json` value carries its rendered text.
- `url.Values.Encode` escaping, parameter ordering and the textual URL are not modelled: the DSN keeps its parameters as a map.
- What the pool does with `SetMaxIdleConns`/`SetMaxOpenConns` is not modelled. The limits are only recorded.
- Logging (`log.Infoc`, the recorder's zap logger) and OpenTelemetry spans are reduced to the level, message and span name they would carry. `web.SetStatusCode` and `web.AddSpan` in `Respond` are not modelled.
- Context cancellation other than by deadline (`context.Canceled`) is not modelled.
- When the deadline passes during `SELECT true`, the driver's error wraps the context's deadline error; the model returns the deadline error itself.
- `db.Ping()` is not bounded by the context in the code. Its duration is an input, and a slow ping can carry the clock past the deadline.
- Goroutines and concurrency safety of the pool are not modelled.
- On zero rows the code assigns a nil slice to `*dest`. This model has only the empty sequence, so "nil" and "empty" are not distinguished.
- Releasing the cursor (`defer rows.Close()` at pgx.go lines 202 and 274) is not modelled: a cursor is a value with nothing to close.
- DbExec.StructIsFirstOfSlice: the record equals the slice's first element only when `dest` starts as the zero value or the query's columns cover every field. `StructScan` into the caller's `dest` keeps the fields that have no column, while the slice path scans into a fresh `new(T)`. The model treats a decoded row as the whole record.
- The partial writes `StructScan` may make into `dest` before it fails are not modelled: `dest` counts as untouched on any error.
- The record query closes its cursor after the first row. Whether later rows exist, or would decode, does not affect it. `DbExec.StructIsFirstOfSlice` states this one-way agreement only.
- `http.Header`'s key canonicalisation is not modelled: keys are compared as given.
- stdin scanning, flag parsing and printing in the logfmt tool are not modelled. `LogFmt.ProcessLine` is the body of the loop for one line.
- LogFmt.ProcessLine: requires that, with a filter set, the record's `service` is present and a string. The code panics on the type assertion otherwise.
- Text.ToLower: lower-cases ASCII letters only, whereas Go's `strings.ToLower` applies Unicode case mapping. The filter is therefore weaker than the code's for non-ASCII service names.
- Process bootstrap, route wiring, metrics, the logging middleware and the readiness handlers that call `StatusCheck` are not part of this model.

=== FILE: dbconnect.dfy ===
/**
 * Connection management of business/data/dbsql/pgx/pgx.go: `Open` builds the
 * connection-string parameters from a `Config`; `StatusCheck` is the
 * readiness probe, ping with linear backoff under a deadline followed by one
 * forced round trip. Time is an abstract clock in milliseconds: sleeps and
 * pings advance it, and a context has expired once the clock has reached its
 * deadline.
 */
module DbConnect {
  import opened Wrappers
  import opened DbErrors

  /** The database settings the process starts with. */
  datatype Config = Config(
    user: string,
    password: string,
    host: string,
    name: string,
    schema: string,
    maxIdleConns: int,
    maxOpenConns: int,
    disableTLS: bool)

  /**
   * The `postgres://` URL handed to the driver, with its query parameters
   * kept as a map (`url.Values` with one value per key); escaping and the
   * textual encoding are not modelled.
   */
  datatype Dsn = Dsn(
    scheme: string,
    user: string,
    password: string,
    host: string,
    path: string,
    params: map<string, string>)

  /** An opened (lazily connecting) pool with the limits it was given. */
  datatype Pool = Pool(dsn: Dsn, maxIdleConns: int, maxOpenConns: int)

  /** The connection-string parameters `Open` sets. */
  function ConnectionParams(cfg: Config): (q: map<string, string>)
    ensures q.Keys <= {"sslmode", "timezone", "search_path"}
    ensures "sslmode" in q && (q["sslmode"] == "disable" || q["sslmode"] == "require")
    ensures q["sslmode"] == "disable" <==> cfg.disableTLS
    ensures "timezone" in q && q["timezone"] == "utc"
    ensures "search_path" in q <==> cfg.schema != ""
    ensures "search_path" in q ==> q["search_path"] == cfg.schema
  {
    var sslMode := if cfg.disableTLS then "disable" else "require";
    var q := map["sslmode" := sslMode, "timezone" := "utc"];
    if cfg.schema != "" then q["search_path" := cfg.schema] else q
  }

  /** The URL `Open` builds. */
  function ConnectionUrl(cfg: Config): Dsn
  {
    Dsn("postgres", cfg.user, cfg.password, cfg.host, cfg.name, ConnectionParams(cfg))
  }

  /**
   * `Open(cfg)`. `driverOpen` is `sqlx.Open("pgx", url)`'s verdict on the URL:
   * `Some(err)` when the driver rejects it. No connection is made here.
   */
  function Open(cfg: Config, driverOpen: Dsn -> Option<Cause>): (r: Result<Pool, Cause>)
    ensures driverOpen(ConnectionUrl(cfg)).Some? <==> r.Err?
    ensures r.Err? ==> r.error == driverOpen(ConnectionUrl(cfg)).value
    ensures r.Ok? ==> r.value.dsn.scheme == "postgres" && r.value.dsn.host == cfg.host
    ensures r.Ok? ==> r.value.dsn.user == cfg.user && r.value.dsn.password == cfg.password
    ensures r.Ok? ==> r.value.dsn.path == cfg.name
    ensures r.Ok? ==> r.value.dsn.params == ConnectionParams(cfg)
    ensures r.Ok? ==> r.value.maxIdleConns == cfg.maxIdleConns && r.value.maxOpenConns == cfg.maxOpenConns
  {
    var url := ConnectionUrl(cfg);
    match driverOpen(url)
    case Some(e) => Err(e)
    case None => Ok(Pool(url, cfg.maxIdleConns, cfg.maxOpenConns))
  }

  /** The deadline the probe imposes when the caller's context has none. */
  const DefaultTimeout: nat := 1000
  /** The backoff unit: the n-th failed ping is followed by an n-unit sleep. */
  const BackoffStep: nat := 100

  /** A context, reduced to its optional deadline (an absolute clock value). */
  datatype Context = Context(deadline: Option<int>)

  /** One `db.Ping()`: its error, if any, and the time it took. */
  datatype PingResult = PingResult(err: Option<Cause>, elapsed: nat)

  /**
   * How the ping loop ended: on a successful ping, or on finding the context
   * expired after a sleep. `sleeps` are the backoff sleeps taken, in order,
   * and `wakes` the clock at each post-sleep context check.
   */
  datatype Probe =
    | Pinged(attempts: nat, clock: int, sleeps: seq<nat>, wakes: seq<int>)
    | Expired(attempts: nat, clock: int, sleeps: seq<nat>, wakes: seq<int>)

  /** The deadline `StatusCheck` works under. */
  function EffectiveDeadline(ctx: Context, now: int): (d: int)
    ensures ctx.deadline.Some? ==> d == ctx.deadline.value
    ensures ctx.deadline.None? ==> d == now + 1000
  {
    match ctx.deadline
    case Some(d) => d
    case None => now + DefaultTimeout
  }

  /**
   * The loop `for attempts := 1; ; attempts++` from attempt `attempt` at time
   * `clock`: ping; on success stop; otherwise sleep `attempt` backoff steps
   * and stop if the context has expired. `ping(k)` is the k-th ping's result.
   * It stops exactly at the first successful ping, unless the context expires
   * first; `SleepSchedule` and `WakeSchedule` state when it slept and woke.
   */
  function PingLoop(ping: nat -> PingResult, deadline: int, attempt: nat, clock: int): (r: Probe)
    requires attempt >= 1
    ensures r.attempts >= attempt && r.clock >= clock
    ensures r.Pinged? <==> ping(r.attempts).err.None?
    ensures forall k :: attempt <= k < r.attempts ==> ping(k).err.Some?
    ensures |r.sleeps| == |r.wakes| == r.attempts - attempt + (if r.Expired? then 1 else 0)
    ensures r.Expired? ==> r.clock >= deadline && r.wakes[|r.wakes| - 1] == r.clock
    decreases if clock < deadline then deadline - clock else 0
  {
    var p := ping(attempt);
    var t := clock + p.elapsed;
    if p.err.None? then Pinged(attempt, t, [], [])
    else
      var sleep := attempt * BackoffStep;
      var woke := t + sleep;
      if woke >= deadline then Expired(attempt, woke, [sleep], [woke])
      else
        var rest := PingLoop(ping, deadline, attempt + 1, woke);
        rest.(sleeps := [sleep] + rest.sleeps, wakes := [woke] + rest.wakes)
  }

  /** The n-th of `sleeps` lasts `attempt + n` backoff steps. */
  predicate LinearBackoff(sleeps: seq<nat>, attempt: nat)
  {
    forall i :: 0 <= i < |sleeps| ==> sleeps[i] == (attempt + i) * 100
  }

  /** The n-th of `wakes` comes at least n + 1 backoff steps after `clock`. */
  predicate WokeAfter(wakes: seq<int>, clock: int)
  {
    forall i :: 0 <= i < |wakes| ==> wakes[i] >= clock + (i + 1) * 100
  }

  /** The first `n` of `wakes` came before `deadline`. */
  predicate WokeBefore(wakes: seq<int>, n: int, deadline: int)
  {
    forall i :: 0 <= i < n && i < |wakes| ==> wakes[i] < deadline
  }

  /** The n-th sleep, counting attempts from `attempt`, lasts `attempt + n` backoff steps. */
  lemma {:induction false} SleepSchedule(ping: nat -> PingResult, deadline: int, attempt: nat, clock: int)
    requires attempt >= 1
    ensures LinearBackoff(PingLoop(ping, deadline, attempt, clock).sleeps, attempt)
    decreases if clock < deadline then deadline - clock else 0
  {
    var p := ping(attempt);
    var sleep := attempt * BackoffStep;
    var woke := clock + p.elapsed + sleep;
    if p.err.Some? && woke < deadline {
      var rest := PingLoop(ping, deadline, attempt + 1, woke);
      assert PingLoop(ping, deadline, attempt, clock).sleeps == [sleep] + rest.sleeps;
      SleepSchedule(ping, deadline, attempt + 1, woke);
      ShiftSleeps(sleep, rest.sleeps, attempt);
    }
  }

  /**
   * The n-th wake-up comes at least n + 1 backoff steps after `clock`, and
   * every wake-up but an expiring last one came before the deadline.
   */
  lemma {:induction false} WakeSchedule(ping: nat -> PingResult, deadline: int, attempt: nat, clock: int)
    requires attempt >= 1
    ensures WokeAfter(PingLoop(ping, deadline, attempt, clock).wakes, clock)
    ensures PingLoop(ping, deadline, attempt, clock).Pinged? ==>
              WokeBefore(PingLoop(ping, deadline, attempt, clock).wakes, |PingLoop(ping, deadline, attempt, clock).wakes|, deadline)
    ensures PingLoop(ping, deadline, attempt, clock).Expired? ==>
              WokeBefore(PingLoop(ping, deadline, attempt, clock).wakes, |PingLoop(ping, deadline, attempt, clock).wakes| - 1, deadline)
    decreases if clock < deadline then deadline - clock else 0
  {
    var p := ping(attempt);
    var sleep := attempt * BackoffStep;
    var woke := clock + p.elapsed + sleep;
    if p.err.Some? && woke < deadline {
      var rest := PingLoop(ping, deadline, attempt + 1, woke);
      var r := PingLoop(ping, deadline, attempt, clock);
      assert r.wakes == [woke] + rest.wakes && r.Pinged? == rest.Pinged?;
      WakeSchedule(ping, deadline, attempt + 1, woke);
      ShiftWakes(woke, rest.wakes, clock);
      ShiftBeforeDeadline(woke, rest.wakes, deadline, if rest.Pinged? then |rest.wakes| else |rest.wakes| - 1);
    }
  }

  /** The clock value the `i`-th wake-up started from: the start, or the previous wake-up. */
  function WokeFrom(wakes: seq<int>, clock: int, i: int): int
    requires 0 <= i <= |wakes|
  {
    if i == 0 then clock else wakes[i - 1]
  }

  /**
   * The `i`-th wake-up comes exactly one ping (attempt `attempt + i`) and the
   * `i`-th sleep after the previous one, or after `clock` for the first.
   */
  predicate WakeAccounted(wakes: seq<int>, sleeps: seq<nat>, ping: nat -> PingResult, attempt: nat, clock: int, i: int)
  {
    0 <= i < |wakes| && i < |sleeps| &&
    wakes[i] == WokeFrom(wakes, clock, i) + ping(attempt + i).elapsed + sleeps[i]
  }

  /** Every wake-up is accounted for by the ping and the sleep before it. */
  predicate WakesAccounted(wakes: seq<int>, sleeps: seq<nat>, ping: nat -> PingResult, attempt: nat, clock: int)
  {
    && |sleeps| == |wakes|
    && forall i :: 0 <= i < |wakes| ==> WakeAccounted(wakes, sleeps, ping, attempt, clock, i)
  }

  /**
   * The clock is advanced by nothing but pings and sleeps: every wake-up is
   * accounted for, and a successful loop ends exactly one ping after its
   * last wake-up.
   */
  predicate ClockAccounted(r: Probe, ping: nat -> PingResult, attempt: nat, clock: int)
  {
    && WakesAccounted(r.wakes, r.sleeps, ping, attempt, clock)
    && (r.Pinged? ==> r.clock == WokeFrom(r.wakes, clock, |r.wakes|) + ping(r.attempts).elapsed)
  }

  /** Time passes only by pinging and sleeping: see `ClockAccounted`. */
  lemma {:induction false} ClockSchedule(ping: nat -> PingResult, deadline: int, attempt: nat, clock: int)
    requires attempt >= 1
    ensures ClockAccounted(PingLoop(ping, deadline, attempt, clock), ping, attempt, clock)
    decreases if clock < deadline then deadline - clock else 0
  {
    var p := ping(attempt);
    var sleep := attempt * BackoffStep;
    var woke := clock + p.elapsed + sleep;
    if p.err.Some? && woke < deadline {
      var rest := PingLoop(ping, deadline, attempt + 1, woke);
      var r := PingLoop(ping, deadline, attempt, clock);
      assert r.wakes == [woke] + rest.wakes && r.sleeps == [sleep] + rest.sleeps;
      assert r.Pinged? == rest.Pinged? && r.clock == rest.clock && r.attempts == rest.attempts;
      ClockSchedule(ping, deadline, attempt + 1, woke);
      ShiftAccounted(rest.wakes, rest.sleeps, ping, attempt, clock, sleep, woke);
      assert WokeFrom(r.wakes, clock, |r.wakes|) == WokeFrom(rest.wakes, woke, |rest.wakes|);
    }
  }

  /** The accounting of the rest of the loop, preceded by this attempt's ping and sleep. */
  lemma ShiftAccounted(ws: seq<int>, ss: seq<nat>, ping: nat -> PingResult, attempt: nat, clock: int, sleep: nat, woke: int)
    requires WakesAccounted(ws, ss, ping, attempt + 1, woke)
    requires woke == clock + ping(attempt).elapsed + sleep
    ensures WakesAccounted([woke] + ws, [sleep] + ss, ping, attempt, clock)
  {
    var wakes, sleeps := [woke] + ws, [sleep] + ss;
    forall i | 0 <= i < |wakes|
      ensures WakeAccounted(wakes, sleeps, ping, attempt, clock, i)
    {
      if i > 0 {
        assert WakeAccounted(ws, ss, ping, attempt + 1, woke, i - 1);
        assert wakes[i] == ws[i - 1] && sleeps[i] == ss[i - 1];
        assert WokeFrom(wakes, clock, i) == WokeFrom(ws, woke, i - 1);
        assert attempt + i == attempt + 1 + (i - 1);
      }
    }
  }

  /** The sleeps of the rest of the loop, preceded by this attempt's. */
  lemma ShiftSleeps(sleep: nat, ss: seq<nat>, attempt: nat)
    requires sleep == attempt * 100 && LinearBackoff(ss, attempt + 1)
    ensures LinearBackoff([sleep] + ss, attempt)
  {
  }

  /** The wake-up times of the rest of the loop, preceded by this attempt's. */
  lemma ShiftWakes(woke: int, ws: seq<int>, clock: int)
    requires woke >= clock + 100 && WokeAfter(ws, woke)
    ensures WokeAfter([woke] + ws, clock)
  {
  }

  /** The first `n` wake-ups of the rest, preceded by this one, all came before the deadline. */
  lemma ShiftBeforeDeadline(woke: int, ws: seq<int>, deadline: int, n: int)
    requires woke < deadline && WokeBefore(ws, n, deadline)
    ensures WokeBefore([woke] + ws, n + 1, deadline)
  {
    forall i | 0 <= i < n + 1 && i < |[woke] + ws|
      ensures ([woke] + ws)[i] < deadline
    {
      if i > 0 {
        assert ([woke] + ws)[i] == ws[i - 1];
      }
    }
  }

  /** What `StatusCheck` returned, with the deadline it used and how its ping loop went. */
  datatype StatusOutcome = StatusOutcome(err: Option<Error>, deadline: int, probe: Probe)

  /** The `SELECT true` round trip: the error it ends with, if any, and the time it takes. */
  datatype RoundTrip = RoundTrip(err: Option<Cause>, elapsed: nat)

  /**
   * `StatusCheck(ctx, db)` started at time `now`. `selectTrue(t)` is the
   * `SELECT true` round trip issued at time `t`; the query runs under the
   * probe's context, so one that has not finished by the deadline ends with
   * the deadline error.
   */
  function StatusCheck(ctx: Context, now: int, ping: nat -> PingResult, selectTrue: int -> RoundTrip)
    : (r: StatusOutcome)
    ensures r.deadline == EffectiveDeadline(ctx, now)
    ensures r.probe.attempts >= 1
    ensures forall i :: 0 <= i < |r.probe.sleeps| ==> r.probe.sleeps[i] == (i + 1) * 100
    ensures r.probe.clock >= r.deadline ==> r.err == Some(DeadlineExceeded)
    ensures r.probe.clock < r.deadline ==>
              (r.err == Some(DeadlineExceeded) <==> r.probe.clock + selectTrue(r.probe.clock).elapsed >= r.deadline)
    ensures r.err != Some(DeadlineExceeded) ==>
              r.probe.Pinged? && ping(r.probe.attempts).err.None? &&
              (forall k :: 1 <= k < r.probe.attempts ==> ping(k).err.Some?) &&
              (r.err.None? <==> selectTrue(r.probe.clock).err.None?) &&
              (r.err.Some? ==> r.err.value == Unclassified(selectTrue(r.probe.clock).err.value))
  {
    var deadline := EffectiveDeadline(ctx, now);
    var p := PingLoop(ping, deadline, 1, now);
    SleepSchedule(ping, deadline, 1, now);
    var err :=
      if p.clock >= deadline || p.clock + selectTrue(p.clock).elapsed >= deadline then Some(DeadlineExceeded)
      else match selectTrue(p.clock).err
        case None => None
        case Some(c) => Some(Unclassified(c));
    StatusOutcome(err, deadline, p)
  }

  /**
   * The probe's clock, step by step: the n-th wake-up comes exactly the n-th
   * ping plus n backoff steps after the previous one (or after the start),
   * and a successful probe stops exactly one ping after its last wake-up.
   */
  predicate BackoffTimed(p: Probe, ping: nat -> PingResult, now: int)
  {
    && |p.sleeps| == |p.wakes|
    && (forall i :: 0 <= i < |p.wakes| ==>
          p.wakes[i] == WokeFrom(p.wakes, now, i) + ping(i + 1).elapsed + (i + 1) * 100)
    && (p.Pinged? ==> p.clock == WokeFrom(p.wakes, now, |p.wakes|) + ping(p.attempts).elapsed)
  }

  /** After the n-th failed ping the probe sleeps n backoff steps, and only then checks the context. */
  lemma ProbeTimeline(ctx: Context, now: int, ping: nat -> PingResult, selectTrue: int -> RoundTrip)
    ensures BackoffTimed(StatusCheck(ctx, now, ping, selectTrue).probe, ping, now)
  {
    var p := StatusCheck(ctx, now, ping, selectTrue).probe;
    ClockSchedule(ping, EffectiveDeadline(ctx, now), 1, now);
    assert ClockAccounted(p, ping, 1, now);
    forall i | 0 <= i < |p.wakes|
      ensures p.wakes[i] == WokeFrom(p.wakes, now, i) + ping(i + 1).elapsed + (i + 1) * 100
    {
      assert WakeAccounted(p.wakes, p.sleeps, ping, 1, now, i);
      assert p.sleeps[i] == (i + 1) * 100;
    }
  }

  /**
   * How far past the deadline a loop that started before it can run: by at
   * most the last ping, plus the last sleep when the loop expired.
   */
  predicate BoundedOvershoot(r: Probe, ping: nat -> PingResult, deadline: int)
  {
    r.clock < deadline + ping(r.attempts).elapsed + (if r.Expired? then r.attempts * 100 else 0)
  }

  /** A loop started before the deadline overshoots it by at most its last ping and sleep. */
  lemma {:induction false} LoopOvershoot(ping: nat -> PingResult, deadline: int, attempt: nat, clock: int)
    requires attempt >= 1 && clock < deadline
    ensures BoundedOvershoot(PingLoop(ping, deadline, attempt, clock), ping, deadline)
    decreases deadline - clock
  {
    var p := ping(attempt);
    var sleep := attempt * BackoffStep;
    var woke := clock + p.elapsed + sleep;
    if p.err.Some? && woke < deadline {
      var rest := PingLoop(ping, deadline, attempt + 1, woke);
      var r := PingLoop(ping, deadline, attempt, clock);
      assert r.clock == rest.clock && r.attempts == rest.attempts && r.Expired? == rest.Expired?;
      LoopOvershoot(ping, deadline, attempt + 1, woke);
    }
  }

  /**
   * A host that never answers a ping makes the probe end with the deadline
   * error, never a driver error; it has slept once per failed attempt.
   */
  lemma UnreachableHostTimesOut(ctx: Context, now: int, ping: nat -> PingResult, selectTrue: int -> RoundTrip)
    requires forall k :: ping(k).err.Some?
    ensures StatusCheck(ctx, now, ping, selectTrue).err == Some(DeadlineExceeded)
    ensures StatusCheck(ctx, now, ping, selectTrue).probe.Expired?
    ensures |StatusCheck(ctx, now, ping, selectTrue).probe.sleeps| == StatusCheck(ctx, now, ping, selectTrue).probe.attempts
    ensures now < EffectiveDeadline(ctx, now) ==>
              StatusCheck(ctx, now, ping, selectTrue).probe.clock <
                EffectiveDeadline(ctx, now) + ping(StatusCheck(ctx, now, ping, selectTrue).probe.attempts).elapsed
                  + StatusCheck(ctx, now, ping, selectTrue).probe.attempts * 100
  {
    if now < EffectiveDeadline(ctx, now) {
      LoopOvershoot(ping, EffectiveDeadline(ctx, now), 1, now);
    }
  }

  /**
   * Every probe started before its deadline stops within one ping, plus one
   * sleep when it expired, of that deadline.
   */
  lemma ProbeOvershoot(ctx: Context, now: int, ping: nat -> PingResult, selectTrue: int -> RoundTrip)
    requires now < EffectiveDeadline(ctx, now)
    ensures BoundedOvershoot(StatusCheck(ctx, now, ping, selectTrue).probe, ping, EffectiveDeadline(ctx, now))
  {
    LoopOvershoot(ping, EffectiveDeadline(ctx, now), 1, now);
  }

  /** A context already past its deadline still pings once, then reports expiry. */
  lemma ExpiredContextPingsOnce(ctx: Context, now: int, ping: nat -> PingResult, selectTrue: int -> RoundTrip)
    requires ctx.deadline.Some? && ctx.deadline.value <= now
    ensures StatusCheck(ctx, now, ping, selectTrue).probe.attempts == 1
    ensures StatusCheck(ctx, now, ping, selectTrue).err == Some(DeadlineExceeded)
  {
  }

  /** Total time spent sleeping. */
  function Sum(s: seq<nat>): nat
  {
    if s == [] then 0 else s[0] + Sum(s[1..])
  }

  /** Linear backoff: the first n sleeps add up to 100 * n * (n + 1) / 2 milliseconds. */
  lemma {:induction false} BackoffTotal(sleeps: seq<nat>, first: nat)
    requires forall i :: 0 <= i < |sleeps| ==> sleeps[i] == (first + i) * 100
    ensures Sum(sleeps) == 100 * first * |sleeps| + 50 * |sleeps| * (|sleeps| - 1)
  {
    if sleeps != [] {
      BackoffTotal(sleeps[1..], first + 1);
    }
  }

  /** After n failed pings the probe has slept 50 * n * (n + 1) milliseconds in all. */
  lemma ProbeSleepTotal(ctx: Context, now: int, ping: nat -> PingResult, selectTrue: int -> RoundTrip)
    ensures Sum(StatusCheck(ctx, now, ping, selectTrue).probe.sleeps) ==
            50 * |StatusCheck(ctx, now, ping, selectTrue).probe.sleeps| * (|StatusCheck(ctx, now, ping, selectTrue).probe.sleeps| + 1)
  {
    var sleeps := StatusCheck(ctx, now, ping, selectTrue).probe.sleeps;
    BackoffTotal(sleeps, 1);
    var n := |sleeps|;
    assert 100 * 1 * n + 50 * n * (n - 1) == 50 * n * (n + 1);
  }
}

=== FILE: dberrors.dfy ===
/**
 * The database layer's error taxonomy: the two PostgreSQL SQLSTATE codes it
 * recognises (Appendix A "PostgreSQL Error Codes" of the PostgreSQL manual),
 * its sentinel errors, and the two classification tables, one for mutations
 * and a narrower one for queries.
 */
module DbErrors {

  /** SQLSTATE 23505, unique_violation. */
  const UniqueViolation: string := "23505"
  /** SQLSTATE 42P01, undefined_table. */
  const UndefinedTable: string := "42P01"

  /**
   * An error as produced by the driver or by a library call: a `*pgconn.PgError`
   * carrying a SQLSTATE code, or any other error. `message` is its `Error()` text.
   */
  datatype Cause = PgError(code: string, message: string) | Failure(message: string)

  /**
   * What the layer returns: one of its sentinels, the context's deadline
   * error, or a driver or library error passed through unchanged.
   */
  datatype Error =
    | ErrDBNotFound          // sql.ErrNoRows
    | ErrDBDuplicatedEntry   // "duplicated entry"
    | ErrUndefinedTable      // "undefined table"
    | DeadlineExceeded       // context.DeadlineExceeded
    | Unclassified(cause: Cause)

  predicate HasCode(c: Cause, code: string)
  {
    c.PgError? && c.code == code
  }

  /** The mutation path's mapping: both recognised codes become sentinels. */
  function ClassifyExec(c: Cause): (e: Error)
    ensures e == ErrUndefinedTable <==> HasCode(c, UndefinedTable)
    ensures e == ErrDBDuplicatedEntry <==> HasCode(c, UniqueViolation)
    ensures e != ErrUndefinedTable && e != ErrDBDuplicatedEntry ==> e == Unclassified(c)
  {
    if c.PgError? then
      if c.code == UndefinedTable then ErrUndefinedTable
      else if c.code == UniqueViolation then ErrDBDuplicatedEntry
      else Unclassified(c)
    else Unclassified(c)
  }

  /** The query paths' mapping: only undefined_table becomes a sentinel. */
  function ClassifyQuery(c: Cause): (e: Error)
    ensures e == ErrUndefinedTable <==> HasCode(c, UndefinedTable)
    ensures e != ErrUndefinedTable ==> e == Unclassified(c)
  {
    if c.PgError? && c.code == UndefinedTable then ErrUndefinedTable else Unclassified(c)
  }

  /**
   * The two tables agree except on unique_violation, which only the mutation
   * path recognises; neither ever yields not-found or a deadline error, and
   * two PgErrors with the same code are mapped to the same sentinel by
   * either table, or both left unclassified (carrying their own messages).
   */
  lemma ClassificationAsymmetry(c: Cause, c': Cause)
    ensures ClassifyQuery(c) == ClassifyExec(c) <==> !HasCode(c, UniqueViolation)
    ensures ClassifyExec(c) != ErrDBNotFound && ClassifyExec(c) != DeadlineExceeded
    ensures ClassifyQuery(c) != ErrDBNotFound && ClassifyQuery(c) != DeadlineExceeded
    ensures c.PgError? && c'.PgError? && c.code == c'.code ==>
              (ClassifyExec(c).Unclassified? <==> ClassifyExec(c').Unclassified?) &&
              (!ClassifyExec(c).Unclassified? ==> ClassifyExec(c) == ClassifyExec(c'))
    ensures c.PgError? && c'.PgError? && c.code == c'.code ==>
              (ClassifyQuery(c).Unclassified? <==> ClassifyQuery(c').Unclassified?) &&
              (!ClassifyQuery(c).Unclassified? ==> ClassifyQuery(c) == ClassifyQuery(c'))
  {
  }
}

=== FILE: dbexec.dfy ===
/**
 * The execution and query helpers of business/data/dbsql/pgx/pgx.go:
 * `NamedExecContext`/`ExecContext` for mutations, `namedQuerySlice` and
 * `namedQueryStruct` (with their three exported wrappers each) for reads.
 * The driver and `sqlx` are a `Driver` record of oracle functions; a result
 * cursor is the sequence of rows `rows.Next()` yields, any of which may fail
 * to decode, plus the iteration error, if any, that ended it.
 */
module DbExec {
  import opened Wrappers
  import opened DbErrors
  import opened QueryRender

  /** One row of a cursor, as `StructScan` sees it. */
  datatype Row<T> = Decoded(value: T) | Undecodable(cause: Cause)

  /**
   * A result cursor: the rows `rows.Next()` delivers, and the error (left in
   * `rows.Err()`) that made it stop early, if any.
   */
  datatype Cursor<T> = Cursor(rows: seq<Row<T>>, iterErr: Option<Cause>)

  /** The collaborators the helpers call, as oracles over their arguments. */
  datatype Driver<T> = Driver(
    named: (string, Source) -> Result<Bound, Cause>,            // sqlx.Named
    exec: (string, Source) -> Option<Cause>,                    // sqlx.NamedExecContext
    namedQuery: (string, Source) -> Result<Cursor<T>, Cause>,   // sqlx.NamedQueryContext
    expandIn: Bound -> Result<Bound, Cause>,                    // sqlx.In
    rebind: string -> string,                                   // db.Rebind
    queryx: (string, seq<Param>) -> Result<Cursor<T>, Cause>)   // db.QueryxContext

  /**
   * The observable side channel of one call: the log line (level and
   * message, carrying the rendered query) and the tracing span's name.
   */
  datatype Trace = Trace(level: nat, message: string, span: string, query: string)

  /** The result of a mutation: nil or an error, and its trace. */
  datatype ExecOutcome = ExecOutcome(err: Option<Error>, trace: Trace)

  /** `NamedExecContext(ctx, log, db, query, data)`. */
  function NamedExecContext<T>(d: Driver<T>, query: string, data: Source): (r: ExecOutcome)
    ensures r.err.None? <==> d.exec(query, data).None?
    ensures r.err == Some(ErrUndefinedTable) <==>
              d.exec(query, data).Some? && HasCode(d.exec(query, data).value, UndefinedTable)
    ensures r.err == Some(ErrDBDuplicatedEntry) <==>
              d.exec(query, data).Some? && HasCode(d.exec(query, data).value, UniqueViolation)
    ensures r.err.Some? && r.err != Some(ErrUndefinedTable) && r.err != Some(ErrDBDuplicatedEntry) ==>
              r.err == Some(Unclassified(d.exec(query, data).value))
    ensures r.trace.level == (if data.EmptyStruct? then 5 else 4)
    ensures r.trace.query == QueryString(d.named(query, data))
  {
    var q := QueryString(d.named(query, data));
    var level := if data.EmptyStruct? then 5 else 4;
    var trace := Trace(level, "database.NamedExecContext", "business.sys.database.exec", q);
    match d.exec(query, data)
    case None => ExecOutcome(None, trace)
    case Some(c) => ExecOutcome(Some(ClassifyExec(c)), trace)
  }

  /** `ExecContext(ctx, log, db, query)`: the named form with the empty struct. */
  function ExecContext<T>(d: Driver<T>, query: string): (r: ExecOutcome)
    ensures r == NamedExecContext(d, query, EmptyStruct)
    ensures r.trace.level == 5
  {
    NamedExecContext(d, query, EmptyStruct)
  }

  /**
   * How both query helpers obtain their cursor. With `withIn`, binding,
   * `IN` expansion and rebinding run in turn and the first failure is
   * returned; otherwise `sqlx.NamedQueryContext` does it all.
   */
  function OpenRows<T>(d: Driver<T>, query: string, data: Source, withIn: bool): Result<Cursor<T>, Cause>
  {
    if withIn then
      match d.named(query, data)
      case Err(e) => Err(e)
      case Ok(b) =>
        match d.expandIn(b)
        case Err(e) => Err(e)
        case Ok(expanded) => d.queryx(d.rebind(expanded.query), expanded.args)
    else d.namedQuery(query, data)
  }

  /** Plain mode is `sqlx.NamedQueryContext` alone: the `IN` path's collaborators play no part. */
  lemma PlainModeUsesNamedQuery<T>(d: Driver<T>, expandIn: Bound -> Result<Bound, Cause>, rebind: string -> string,
                                   queryx: (string, seq<Param>) -> Result<Cursor<T>, Cause>, query: string, data: Source)
    ensures OpenRows(d, query, data, false) == d.namedQuery(query, data)
    ensures OpenRows(d, query, data, false) ==
            OpenRows(d.(expandIn := expandIn, rebind := rebind, queryx := queryx), query, data, false)
  {
  }

  /**
   * `IN` mode never calls `sqlx.NamedQueryContext`: it binds, expands, rebinds
   * and queries, in that order.
   */
  lemma InModeBypassesNamedQuery<T>(d: Driver<T>, namedQuery: (string, Source) -> Result<Cursor<T>, Cause>,
                                    query: string, data: Source)
    ensures OpenRows(d, query, data, true) == OpenRows(d.(namedQuery := namedQuery), query, data, true)
    ensures d.named(query, data).Ok? && d.expandIn(d.named(query, data).value).Ok? ==>
              var expanded := d.expandIn(d.named(query, data).value).value;
              OpenRows(d, query, data, true) == d.queryx(d.rebind(expanded.query), expanded.args)
  {
  }

  /**
   * In `IN` mode a binding or expansion failure is returned before any query
   * is issued: the outcome does not depend on the query oracle at all.
   */
  lemma BindingFailsBeforeQuery<T>(d: Driver<T>, other: (string, seq<Param>) -> Result<Cursor<T>, Cause>,
                                   query: string, data: Source)
    requires d.named(query, data).Err? || d.expandIn(d.named(query, data).value).Err?
    ensures OpenRows(d, query, data, true) == OpenRows(d.(queryx := other), query, data, true)
    ensures OpenRows(d, query, data, true).Err?
  {
  }

  predicate AllDecoded<T>(rows: seq<Row<T>>)
  {
    forall i :: 0 <= i < |rows| ==> rows[i].Decoded?
  }

  /** The position of the first row that fails to decode. */
  function FirstUndecodable<T>(rows: seq<Row<T>>): (k: nat)
    requires !AllDecoded(rows)
    ensures k < |rows| && rows[k].Undecodable?
    ensures AllDecoded(rows[..k])
  {
    if rows[0].Undecodable? then 0
    else
      var k := FirstUndecodable(rows[1..]);
      assert rows[..k + 1] == [rows[0]] + rows[1..][..k];
      k + 1
  }

  /**
   * The `for rows.Next() { StructScan; append }` loop: the decoded values in
   * cursor order, or the first decode error.
   */
  function DecodeRows<T>(rows: seq<Row<T>>): (r: Result<seq<T>, Cause>)
    ensures r.Ok? <==> AllDecoded(rows)
    ensures r.Ok? ==> |r.value| == |rows| && forall i :: 0 <= i < |rows| ==> rows[i] == Decoded(r.value[i])
    ensures r.Err? ==> r.error == rows[FirstUndecodable(rows)].cause
  {
    if rows == [] then Ok([])
    else
      match rows[0]
      case Undecodable(c) => Err(c)
      case Decoded(v) =>
        match DecodeRows(rows[1..])
        case Err(c) => Err(c)
        case Ok(vs) => Ok([v] + vs)
  }

  /** The result of a slice query: error, the final `*dest`, and the trace. */
  datatype SliceOutcome<T> = SliceOutcome(err: Option<Error>, dest: seq<T>, trace: Trace)

  /**
   * What a slice query makes of the cursor `cursorResult` it obtained, with `dest`
   * the slice held before the call: an open failure is classified by the
   * query table; otherwise `*dest` becomes exactly the decoded rows in cursor
   * order, or the first decode error is returned unchanged; on any error
   * `*dest` is left as it was.
   */
  ghost predicate SliceFrom<T>(r: SliceOutcome<T>, cursorResult: Result<Cursor<T>, Cause>, dest: seq<T>)
  {
    && (r.err.Some? ==> r.dest == dest)
    && (cursorResult.Err? ==> r.err == Some(ClassifyQuery(cursorResult.error)))
    && (cursorResult.Ok? ==>
          var rows := cursorResult.value.rows;
          && (r.err.None? <==> AllDecoded(rows))
          && (r.err.None? ==> |r.dest| == |rows| && forall i :: 0 <= i < |rows| ==> rows[i] == Decoded(r.dest[i]))
          && (r.err.Some? ==> r.err == Some(Unclassified(rows[FirstUndecodable(rows)].cause))))
  }

  /** The slice query's log line: level 5, carrying the rendering of `query` bound to `data`. */
  ghost predicate SliceTrace<T>(r: SliceOutcome<T>, d: Driver<T>, query: string, data: Source)
  {
    r.trace.level == 5 && r.trace.message == "database.NamedQuerySlice" &&
    r.trace.span == "business.sys.database.queryslice" && r.trace.query == QueryString(d.named(query, data))
  }

  /**
   * `namedQuerySlice(ctx, log, db, query, data, dest, withIn)`, with `dest`
   * the slice `*dest` held before the call.
   */
  function RunQuerySlice<T>(d: Driver<T>, query: string, data: Source, dest: seq<T>, withIn: bool)
    : (r: SliceOutcome<T>)
    ensures SliceTrace(r, d, query, data)
    ensures SliceFrom(r, OpenRows(d, query, data, withIn), dest)
  {
    var trace := Trace(5, "database.NamedQuerySlice", "business.sys.database.queryslice",
                       QueryString(d.named(query, data)));
    match OpenRows(d, query, data, withIn)
    case Err(c) => SliceOutcome(Some(ClassifyQuery(c)), dest, trace)
    case Ok(cursor) =>
      match DecodeRows(cursor.rows)
      case Err(c) => SliceOutcome(Some(Unclassified(c)), dest, trace)
      case Ok(values) => SliceOutcome(None, values, trace)
  }

  /**
   * `QuerySlice`: the query is bound to the empty struct and run through
   * `sqlx.NamedQueryContext`; the slice is what that cursor yields.
   */
  function QuerySlice<T>(d: Driver<T>, query: string, dest: seq<T>): (r: SliceOutcome<T>)
    ensures SliceTrace(r, d, query, EmptyStruct)
    ensures SliceFrom(r, d.namedQuery(query, EmptyStruct), dest)
  {
    RunQuerySlice(d, query, EmptyStruct, dest, false)
  }

  /** `NamedQuerySlice`: the caller's data, run through `sqlx.NamedQueryContext`. */
  function NamedQuerySlice<T>(d: Driver<T>, query: string, data: Source, dest: seq<T>): (r: SliceOutcome<T>)
    ensures SliceTrace(r, d, query, data)
    ensures SliceFrom(r, d.namedQuery(query, data), dest)
  {
    RunQuerySlice(d, query, data, dest, false)
  }

  /**
   * `NamedQuerySliceUsingIn`: the caller's data is bound, its `IN` lists
   * expanded and the query rebound; a failure of either step is classified
   * like a query error, and otherwise the slice is what `QueryxContext`
   * yields for the expanded query.
   */
  function NamedQuerySliceUsingIn<T>(d: Driver<T>, query: string, data: Source, dest: seq<T>)
    : (r: SliceOutcome<T>)
    ensures SliceTrace(r, d, query, data)
    ensures d.named(query, data).Err? ==> SliceFrom(r, Err(d.named(query, data).error), dest)
    ensures d.named(query, data).Ok? && d.expandIn(d.named(query, data).value).Err? ==>
              SliceFrom(r, Err(d.expandIn(d.named(query, data).value).error), dest)
    ensures d.named(query, data).Ok? && d.expandIn(d.named(query, data).value).Ok? ==>
              var expanded := d.expandIn(d.named(query, data).value).value;
              SliceFrom(r, d.queryx(d.rebind(expanded.query), expanded.args), dest)
  {
    RunQuerySlice(d, query, data, dest, true)
  }

  /** The result of a single-record query: error, the final `dest`, and the trace. */
  datatype StructOutcome<T> = StructOutcome(err: Option<Error>, dest: T, trace: Trace)

  /**
   * What a record query makes of the cursor `cursorResult` it obtained, with `dest`
   * the record held before the call: an open failure is classified by the
   * query table; no row is not-found; otherwise only the first row is
   * decoded, into `dest`, or its error returned unchanged; on any error
   * `dest` is left as it was.
   */
  ghost predicate StructFrom<T>(r: StructOutcome<T>, cursorResult: Result<Cursor<T>, Cause>, dest: T)
  {
    && (r.err.Some? ==> r.dest == dest)
    && (cursorResult.Err? ==> r.err == Some(ClassifyQuery(cursorResult.error)))
    && (cursorResult.Ok? ==>
          var rows := cursorResult.value.rows;
          && (rows == [] ==> r.err == Some(ErrDBNotFound))
          && (rows != [] ==> (r.err.None? <==> rows[0].Decoded?))
          && (rows != [] && rows[0].Decoded? ==> r.dest == rows[0].value)
          && (rows != [] && rows[0].Undecodable? ==> r.err == Some(Unclassified(rows[0].cause))))
  }

  /** The record query's log line: level 5, carrying the rendering of `query` bound to `data`. */
  ghost predicate StructTrace<T>(r: StructOutcome<T>, d: Driver<T>, query: string, data: Source)
  {
    r.trace.level == 5 && r.trace.message == "database.NamedQueryStruct" &&
    r.trace.span == "business.sys.database.query" && r.trace.query == QueryString(d.named(query, data))
  }

  /**
   * `namedQueryStruct(ctx, log, db, query, data, dest, withIn)`, with `dest`
   * the record held before the call.
   */
  function RunQueryStruct<T>(d: Driver<T>, query: string, data: Source, dest: T, withIn: bool)
    : (r: StructOutcome<T>)
    ensures StructTrace(r, d, query, data)
    ensures StructFrom(r, OpenRows(d, query, data, withIn), dest)
  {
    var trace := Trace(5, "database.NamedQueryStruct", "business.sys.database.query",
                       QueryString(d.named(query, data)));
    match OpenRows(d, query, data, withIn)
    case Err(c) => StructOutcome(Some(ClassifyQuery(c)), dest, trace)
    case Ok(cursor) =>
      if cursor.rows == [] then StructOutcome(Some(ErrDBNotFound), dest, trace)
      else
        match cursor.rows[0]
        case Undecodable(c) => StructOutcome(Some(Unclassified(c)), dest, trace)
        case Decoded(v) => StructOutcome(None, v, trace)
  }

  /**
   * `QueryStruct`: the query is bound to the empty struct and run through
   * `sqlx.NamedQueryContext`; the record is that cursor's first row.
   */
  function QueryStruct<T>(d: Driver<T>, query: string, dest: T): (r: StructOutcome<T>)
    ensures StructTrace(r, d, query, EmptyStruct)
    ensures StructFrom(r, d.namedQuery(query, EmptyStruct), dest)
  {
    RunQueryStruct(d, query, EmptyStruct, dest, false)
  }

  /** `NamedQueryStruct`: the caller's data, run through `sqlx.NamedQueryContext`. */
  function NamedQueryStruct<T>(d: Driver<T>, query: string, data: Source, dest: T): (r: StructOutcome<T>)
    ensures StructTrace(r, d, query, data)
    ensures StructFrom(r, d.namedQuery(query, data), dest)
  {
    RunQueryStruct(d, query, data, dest, false)
  }

  /**
   * `NamedQueryStructUsingIn`: bind, expand `IN` lists, rebind, then
   * `QueryxContext`; a binding or expansion failure is classified like a
   * query error.
   */
  function NamedQueryStructUsingIn<T>(d: Driver<T>, query: string, data: Source, dest: T)
    : (r: StructOutcome<T>)
    ensures StructTrace(r, d, query, data)
    ensures d.named(query, data).Err? ==> StructFrom(r, Err(d.named(query, data).error), dest)
    ensures d.named(query, data).Ok? && d.expandIn(d.named(query, data).value).Err? ==>
              StructFrom(r, Err(d.expandIn(d.named(query, data).value).error), dest)
    ensures d.named(query, data).Ok? && d.expandIn(d.named(query, data).value).Ok? ==>
              var expanded := d.expandIn(d.named(query, data).value).value;
              StructFrom(r, d.queryx(d.rebind(expanded.query), expanded.args), dest)
  {
    RunQueryStruct(d, query, data, dest, true)
  }

  /**
   * The single-record query agrees with the slice query on the same cursor:
   * an empty successful slice means not-found, a non-empty one means its
   * first element; an open failure is reported identically by both. The
   * converse fails: the record query succeeds whenever the first row
   * decodes, even if a later row would make the slice query fail. A decoded
   * row stands for the whole record, as when `dest` starts as the zero value.
   */
  lemma {:induction false} StructIsFirstOfSlice<T>(d: Driver<T>, query: string, data: Source,
                                                  slice: seq<T>, one: T, withIn: bool)
    ensures var s := RunQuerySlice(d, query, data, slice, withIn);
            var t := RunQueryStruct(d, query, data, one, withIn);
            && (OpenRows(d, query, data, withIn).Err? ==> s.err == t.err)
            && (s.err.None? && s.dest == [] ==> t.err == Some(ErrDBNotFound))
            && (s.err.None? && s.dest != [] ==> t.err.None? && t.dest == s.dest[0])
  {
    var s := RunQuerySlice(d, query, data, slice, withIn);
    if OpenRows(d, query, data, withIn).Ok? && s.err.None? {
      var rows := OpenRows(d, query, data, withIn).value.rows;
      if rows != [] {
        assert rows[0] == Decoded(s.dest[0]);
      }
    }
  }

  /**
   * Neither query helper looks at `rows.Err()`: a cursor cut short by an
   * iteration error reads as complete. With no row delivered, the slice
   * query succeeds with an empty result and the record query reports
   * not-found.
   */
  lemma IterationErrorIsMasked<T>(d: Driver<T>, query: string, data: Source, slice: seq<T>, one: T, c: Cause)
    requires d.namedQuery(query, data) == Ok(Cursor([], Some(c)))
    ensures RunQuerySlice(d, query, data, slice, false).err.None?
    ensures RunQuerySlice(d, query, data, slice, false).dest == []
    ensures RunQueryStruct(d, query, data, one, false).err == Some(ErrDBNotFound)
  {
  }

  /** Queries never report a unique violation as a duplicate entry; mutations do. */
  lemma DuplicateOnlyOnMutation<T>(d: Driver<T>, query: string, data: Source, slice: seq<T>, one: T,
                                   withIn: bool)
    ensures RunQuerySlice(d, query, data, slice, withIn).err != Some(ErrDBDuplicatedEntry)
    ensures RunQueryStruct(d, query, data, one, withIn).err != Some(ErrDBDuplicatedEntry)
  {
  }
}

=== FILE: httpwriter.dfy ===
/**
 * The underlying `http.ResponseWriter` both status recorders wrap: a header
 * map and the list of calls forwarded to it (status lines and body writes).
 */
module HttpWriter {
  import opened Wrappers

  newtype uint8 = x: int | 0 <= x < 256
  type Bytes = seq<uint8>

  /** `http.Header`: each key holds its values in the order they were added. */
  type Header = map<string, seq<string>>

  /**
   * A call forwarded to the underlying writer. A status line goes out with
   * the header map as it stands at that moment: a header changed after
   * `WriteHeader` is never sent.
   */
  datatype Effect = WroteHeader(code: int, header: Header) | WroteBody(data: Bytes)

  datatype Writer = Writer(header: Header, sent: seq<Effect>)

  /** What the underlying `Write` returned: the byte count and the error, if any. */
  datatype WriteResult = WriteResult(n: nat, err: Option<string>)

  /** `h.Values(key)`: the values under `key`, none when absent. */
  function Values(h: Header, key: string): seq<string>
  {
    if key in h then h[key] else []
  }

  /** `h.Add(key, v)`: appends one value under `key`. */
  function AddValue(h: Header, key: string, v: string): (r: Header)
    ensures r.Keys == h.Keys + {key}
    ensures Values(r, key) == Values(h, key) + [v]
    ensures forall k :: k != key ==> Values(r, k) == Values(h, k)
  {
    h[key := Values(h, key) + [v]]
  }

  /** `for _, v := range vs { h.Add(key, v) }`. */
  function AddValues(h: Header, key: string, vs: seq<string>): (r: Header)
    ensures Values(r, key) == Values(h, key) + vs
    ensures forall k :: k != key ==> Values(r, k) == Values(h, k)
    ensures vs == [] ==> r == h
    decreases |vs|
  {
    if vs == [] then h else AddValues(AddValue(h, key, vs[0]), key, vs[1..])
  }

  /** `h.Set(key, v)`: `key` now holds exactly `v`. */
  function SetValue(h: Header, key: string, v: string): (r: Header)
    ensures Values(r, key) == [v]
    ensures forall k :: k != key ==> Values(r, k) == Values(h, k)
  {
    h[key := [v]]
  }

  /** The status codes among the forwarded calls, in order. */
  function HeaderCodes(effects: seq<Effect>): seq<int>
  {
    if effects == [] then []
    else (if effects[0].WroteHeader? then [effects[0].code] else []) + HeaderCodes(effects[1..])
  }

  /** The body bytes among the forwarded calls, concatenated. */
  function Body(effects: seq<Effect>): Bytes
  {
    if effects == [] then []
    else (if effects[0].WroteBody? then effects[0].data else []) + Body(effects[1..])
  }

  lemma {:induction false} HeaderCodesAppend(a: seq<Effect>, b: seq<Effect>)
    ensures HeaderCodes(a + b) == HeaderCodes(a) + HeaderCodes(b)
  {
    if a == [] {
      assert a + b == b;
    } else {
      var head: seq<int> := if a[0].WroteHeader? then [a[0].code] else [];
      assert (a + b)[0] == a[0] && (a + b)[1..] == a[1..] + b;
      assert HeaderCodes(a + b) == head + HeaderCodes(a[1..] + b);
      HeaderCodesAppend(a[1..], b);
      assert HeaderCodes(a) == head + HeaderCodes(a[1..]);
    }
  }

  lemma {:induction false} BodyAppend(a: seq<Effect>, b: seq<Effect>)
    ensures Body(a + b) == Body(a) + Body(b)
  {
    if a == [] {
      assert a + b == b;
    } else {
      var head: Bytes := if a[0].WroteBody? then a[0].data else [];
      assert (a + b)[0] == a[0] && (a + b)[1..] == a[1..] + b;
      assert Body(a + b) == head + Body(a[1..] + b);
      BodyAppend(a[1..], b);
      assert Body(a) == head + Body(a[1..]);
    }
  }
}

=== FILE: logfmt.dfy ===
/**
 * The per-line logic of services/publisher/cmd/tooling/logfmt/main.go: filter
 * a JSON log record by service and rewrite it as one human-readable line.
 * JSON decoding and `fmt` rendering of non-string values are inputs: a
 * record arrives already decoded, with each value's `%s` and `%v` text.
 */
module LogFmt {
  import opened Wrappers
  import opened Text

  /**
   * A decoded JSON value: a string, `null`, or anything else together with
   * the text `fmt` produces for it under `%s` and under `%v`.
   */
  datatype Json = JString(s: string) | JNull | JOther(asS: string, asV: string)

  /** A decoded log line: `map[string]interface{}`. */
  type Record = map<string, Json>

  /** `fmt.Sprintf("%v", v)`. */
  function FormatV(v: Json): string
  {
    match v
    case JString(s) => s
    case JNull => "<nil>"
    case JOther(_, asV) => asV
  }

  /** `fmt.Sprintf("%s", m[key])`; a missing key reads as a nil interface. */
  function FormatS(m: Record, key: string): string
  {
    if key !in m then "%!s(<nil>)"
    else match m[key]
      case JString(s) => s
      case JNull => "%!s(<nil>)"
      case JOther(asS, _) => asS
  }

  /** The keys the fixed part of a line already shows. */
  const Reserved: set<string> := {"service", "ts", "level", "trace_id", "caller", "msg", "method", "path", "remoteaddr"}

  const ZeroTraceId: string := "00000000000000000000000000000000"

  /** The trace id shown: 32 zeros when the record has none, else the `%v` of its value. */
  function TraceId(m: Record): (t: string)
    ensures "trace_id" !in m ==> |t| == 32 && forall i :: 0 <= i < |t| ==> t[i] == '0'
    ensures "trace_id" in m ==> t == FormatV(m["trace_id"])
  {
    if "trace_id" in m then FormatV(m["trace_id"]) else ZeroTraceId
  }

  /** `service: ts: level: traceID: caller: msg: `. */
  function Prefix(m: Record): string
  {
    FormatS(m, "service") + ": " + FormatS(m, "ts") + ": " + FormatS(m, "level") + ": " +
    TraceId(m) + ": " + FormatS(m, "caller") + ": " + FormatS(m, "msg") + ": "
  }

  /** `k[v]: ` */
  function Entry(k: string, v: Json): string
  {
    k + "[" + FormatV(v) + "]: "
  }

  predicate Distinct(keys: seq<string>)
  {
    forall i, j :: 0 <= i < j < |keys| ==> keys[i] != keys[j]
  }

  /** `order` visits every key of `m` exactly once, as a `range` over the map does. */
  predicate IsIterationOrder(order: seq<string>, m: Record)
  {
    Distinct(order) && (forall k :: k in order ==> k in m) && (forall k :: k in m ==> k in order)
  }

  /** The keys of `keys`, in order, that `m` holds and `exclude` does not. */
  function Select(keys: seq<string>, m: Record, exclude: set<string>): (r: seq<string>)
    ensures forall k :: k in r <==> k in keys && k in m && k !in exclude
    ensures Distinct(keys) ==> Distinct(r)
    ensures |r| <= |keys|
  {
    if keys == [] then []
    else
      var rest := Select(keys[1..], m, exclude);
      assert forall k :: k in keys <==> k == keys[0] || k in keys[1..];
      if keys[0] in m && keys[0] !in exclude then [keys[0]] + rest else rest
  }

  /** The entries for `keys`, in order. */
  function Entries(keys: seq<string>, m: Record): (r: seq<string>)
    requires forall k :: k in keys ==> k in m
    ensures |r| == |keys|
    ensures forall i :: 0 <= i < |keys| ==> r[i] == Entry(keys[i], m[keys[i]])
  {
    if keys == [] then [] else [Entry(keys[0], m[keys[0]])] + Entries(keys[1..], m)
  }

  /** The optional known fields, in the order they are shown. */
  const KnownFields: seq<string> := ["method", "path", "remoteaddr"]

  /** Position of a known field in `KnownFields`. */
  function Rank(k: string): nat
  {
    if k == "method" then 0 else if k == "path" then 1 else 2
  }

  /**
   * `method[..]: `, `path[..]: `, `remoteaddr[..]: ` are shown each exactly
   * when present, in that order.
   */
  function KnownKeys(m: Record): (r: seq<string>)
    ensures forall k :: k in r <==> k in m && k in KnownFields
    ensures forall i, j :: 0 <= i < j < |r| ==> Rank(r[i]) < Rank(r[j])
  {
    (if "method" in m then ["method"] else []) +
    (if "path" in m then ["path"] else []) +
    (if "remoteaddr" in m then ["remoteaddr"] else [])
  }

  /** The remaining keys, in the map's iteration order. */
  function TailKeys(m: Record, order: seq<string>): seq<string>
  {
    Select(order, m, Reserved)
  }

  /** What the `strings.Builder` receives, piece by piece. */
  function Pieces(m: Record, order: seq<string>): seq<string>
  {
    [Prefix(m)] + Entries(KnownKeys(m), m) + Entries(TailKeys(m, order), m)
  }

  predicate EndsWithSeparator(s: string)
  {
    |s| >= 2 && s[|s| - 2..] == ": "
  }

  lemma {:induction false} ConcatEndsWithSeparator(pieces: seq<string>)
    requires pieces != []
    requires forall i :: 0 <= i < |pieces| ==> EndsWithSeparator(pieces[i])
    ensures EndsWithSeparator(Concat(pieces))
  {
    if |pieces| > 1 {
      ConcatEndsWithSeparator(pieces[1..]);
      var t := Concat(pieces[1..]);
      assert (pieces[0] + t)[|pieces[0] + t| - 2..] == t[|t| - 2..];
    } else {
      assert Concat(pieces) == pieces[0] + "";
    }
  }

  lemma SeparatorSuffix(x: string)
    ensures EndsWithSeparator(x + ": ")
  {
    assert (x + ": ")[|x| ..] == ": ";
  }

  lemma PrefixEndsWithSeparator(m: Record)
    ensures EndsWithSeparator(Prefix(m))
  {
    var x := FormatS(m, "service") + ": " + FormatS(m, "ts") + ": " + FormatS(m, "level") + ": " +
             TraceId(m) + ": " + FormatS(m, "caller") + ": " + FormatS(m, "msg");
    assert Prefix(m) == x + ": ";
    SeparatorSuffix(x);
  }

  lemma {:induction false} EntriesEndWithSeparator(keys: seq<string>, m: Record)
    requires forall k :: k in keys ==> k in m
    ensures forall i :: 0 <= i < |keys| ==> EndsWithSeparator(Entries(keys, m)[i])
  {
    forall i | 0 <= i < |keys|
      ensures EndsWithSeparator(Entries(keys, m)[i])
    {
      var x := keys[i] + "[" + FormatV(m[keys[i]]) + "]";
      assert Entries(keys, m)[i] == x + ": ";
      SeparatorSuffix(x);
    }
  }

  lemma PiecesEndWithSeparator(m: Record, order: seq<string>)
    requires IsIterationOrder(order, m)
    ensures forall i :: 0 <= i < |Pieces(m, order)| ==> EndsWithSeparator(Pieces(m, order)[i])
  {
    PrefixEndsWithSeparator(m);
    EntriesEndWithSeparator(KnownKeys(m), m);
    EntriesEndWithSeparator(TailKeys(m, order), m);
  }

  /** The built string always ends with the separator the printer drops. */
  lemma BuiltEndsWithSeparator(m: Record, order: seq<string>)
    requires IsIterationOrder(order, m)
    ensures EndsWithSeparator(Concat(Pieces(m, order)))
  {
    PiecesEndWithSeparator(m, order);
    ConcatEndsWithSeparator(Pieces(m, order));
  }

  /** `s[:len(s)-2]` of a string ending in `": "`. */
  function DropSeparatorSuffix(s: string): (r: string)
    requires EndsWithSeparator(s)
    ensures r + ": " == s
  {
    assert s == s[..|s| - 2] + s[|s| - 2..];
    s[..|s| - 2]
  }

  /**
   * The printed line for a record: the built string without its last two
   * characters, which are always the separator `": "`.
   */
  function FormatRecord(m: Record, order: seq<string>): (out: string)
    requires IsIterationOrder(order, m)
    ensures out + ": " == Concat(Pieces(m, order))
  {
    BuiltEndsWithSeparator(m, order);
    DropSeparatorSuffix(Concat(Pieces(m, order)))
  }

  /** Dropping a trailing separator from `p + t` keeps all of `p` but possibly its own separator. */
  lemma DropSeparator(out: string, p: string, t: string)
    requires out + ": " == p + t && |p| >= 2
    ensures p[..|p| - 2] <= out
    ensures |t| >= 2 ==> p <= out
  {
    assert |out| + 2 == |p| + |t|;
    assert forall i :: 0 <= i < |out| ==> out[i] == (p + t)[i];
  }

  /** The first piece leads the line, perhaps without its own separator when it is the only piece. */
  lemma LeadingPiece(pieces: seq<string>, out: string)
    requires pieces != []
    requires forall i :: 0 <= i < |pieces| ==> EndsWithSeparator(pieces[i])
    requires out + ": " == Concat(pieces)
    ensures |pieces[0]| >= 2 && pieces[0][..|pieces[0]| - 2] <= out
    ensures |pieces| > 1 ==> pieces[0] <= out
  {
    var rest := pieces[1..];
    assert Concat(pieces) == pieces[0] + Concat(rest);
    if rest != [] {
      ConcatEndsWithSeparator(rest);
    }
    DropSeparator(out, pieces[0], Concat(rest));
  }

  /**
   * The line starts with the fixed fields in their fixed order; only the
   * separator after `msg` can be the one dropped.
   */
  lemma PrefixLeadsLine(m: Record, order: seq<string>)
    requires IsIterationOrder(order, m)
    ensures var p := Prefix(m); |p| >= 2 && p[..|p| - 2] <= FormatRecord(m, order)
    ensures KnownKeys(m) + TailKeys(m, order) != [] ==> Prefix(m) <= FormatRecord(m, order)
  {
    var pieces := Pieces(m, order);
    PiecesEndWithSeparator(m, order);
    assert pieces[0] == Prefix(m);
    assert |pieces| == 1 + |KnownKeys(m)| + |TailKeys(m, order)|;
    LeadingPiece(pieces, FormatRecord(m, order));
  }

  /** Every key outside the reserved ones appears exactly once after the fixed part, and no reserved key does. */
  lemma TailCoversRemainingKeys(m: Record, order: seq<string>)
    requires IsIterationOrder(order, m)
    ensures forall k :: k in TailKeys(m, order) <==> k in m && k !in Reserved
    ensures Distinct(TailKeys(m, order))
  {
  }

  /** Two distinct sequences with the same elements are permutations of each other. */
  lemma {:induction false} DistinctSameElements(a: seq<string>, b: seq<string>)
    requires Distinct(a) && Distinct(b)
    requires forall k :: k in a <==> k in b
    ensures multiset(a) == multiset(b)
  {
    DistinctCounts(a);
    DistinctCounts(b);
    assert forall k :: multiset(a)[k] == multiset(b)[k];
  }

  lemma {:induction false} DistinctCounts(a: seq<string>)
    requires Distinct(a)
    ensures forall k :: multiset(a)[k] == (if k in a then 1 else 0)
  {
    if a != [] {
      assert a == [a[0]] + a[1..];
      DistinctCounts(a[1..]);
      assert a[0] !in a[1..];
    }
  }

  /**
   * The map's iteration order is unspecified: whatever the order, the
   * remaining keys shown after the fixed prefix are the same multiset.
   */
  lemma TailIndependentOfOrder(m: Record, o1: seq<string>, o2: seq<string>)
    requires IsIterationOrder(o1, m) && IsIterationOrder(o2, m)
    ensures multiset(TailKeys(m, o1)) == multiset(TailKeys(m, o2))
  {
    DistinctSameElements(TailKeys(m, o1), TailKeys(m, o2));
  }

  /** The filter can only read `service` when it is present and a string. */
  predicate HasStringService(m: Record)
  {
    "service" in m && m["service"].JString?
  }

  /**
   * One input line. `filter` is the `-service` flag, `parsed` the result of
   * decoding the line into a map (`None` when that decoding fails; the line
   * `null` decodes to the empty record) and `order` the map's iteration
   * order. `None` means the line is skipped.
   */
  function ProcessLine(filter: string, line: string, parsed: Option<Record>, order: seq<string>)
    : (out: Option<string>)
    requires parsed.Some? ==> IsIterationOrder(order, parsed.value)
    requires parsed.Some? && filter != "" ==> HasStringService(parsed.value)
    ensures parsed.None? ==> (out.Some? <==> filter == "") && (out.Some? ==> out.value == line)
    ensures parsed.Some? ==>
              (out.Some? <==> filter == "" || ToLower(parsed.value["service"].s) == ToLower(filter))
    ensures parsed.Some? && out.Some? ==> out.value == FormatRecord(parsed.value, order)
  {
    var service := ToLower(filter);
    match parsed
    case None => if service == "" then Some(line) else None
    case Some(m) =>
      if service != "" && ToLower(m["service"].s) != service then None
      else Some(FormatRecord(m, order))
  }
}

=== FILE: queryrender.dfy ===
/**
 * The log renderer `queryString` (business/data/dbsql/pgx/pgx.go): it turns a
 * query template and its parameter source into a one-line display string.
 * Named-parameter binding (`sqlx.Named`) is an oracle whose result is an input.
 */
module QueryRender {
  import opened Wrappers
  import opened Text
  import opened DbErrors

  /**
   * One positional argument produced by binding. Strings and byte slices are
   * rendered quoted; for any other value `shown` is its `%v` text, and for a
   * byte slice `text` is the `string(v)` conversion of its bytes.
   */
  datatype Param = PString(s: string) | PBytes(text: string) | POther(shown: string)

  /**
   * The `data any` argument of the exported helpers: the empty struct
   * `struct{}{}` used by the no-parameter entry points, or any other value,
   * described by the fields a binder can look names up in.
   */
  datatype Source = EmptyStruct | Record(fields: map<string, Param>)

  /** A successful `sqlx.Named` result: the query with `?` markers and the arguments in marker order. */
  datatype Bound = Bound(query: string, args: seq<Param>)

  /** The printable literal substituted for one argument. */
  function Literal(p: Param): string
  {
    match p
    case PString(s) => "'" + s + "'"
    case PBytes(t) => "'" + t + "'"
    case POther(shown) => shown
  }

  /**
   * Substitutes the arguments in order, each one for the first `?` of the
   * string as it stands at that moment -- which may be a `?` inside a literal
   * substituted earlier.
   */
  function Substitute(q: string, args: seq<Param>): (r: string)
    ensures '?' !in q ==> r == q
    decreases |args|
  {
    if args == [] then q else Substitute(ReplaceFirst(q, '?', Literal(args[0])), args[1..])
  }

  /** Text before the first marker is never touched by substitution. */
  lemma {:induction false} SubstituteSkipsPrefix(p: string, y: string, args: seq<Param>)
    requires '?' !in p
    ensures Substitute(p + y, args) == p + Substitute(y, args)
    decreases |args|
  {
    if args != [] {
      ReplaceFirstSkipsPrefix(p, y, '?', Literal(args[0]));
      SubstituteSkipsPrefix(p, ReplaceFirst(y, '?', Literal(args[0])), args[1..]);
    }
  }

  /**
   * With no marker before it and none inside the literal, the first marker
   * becomes the first argument's literal and the rest of the template takes
   * the remaining arguments.
   */
  lemma SubstituteStep(p: string, a: Param, rest: string, args: seq<Param>)
    requires '?' !in p && '?' !in Literal(a)
    ensures Substitute(p + "?" + rest, [a] + args) == p + Literal(a) + Substitute(rest, args)
  {
    ReplaceMarkerAfterPrefix(p, Literal(a), rest);
    assert ([a] + args)[0] == a && ([a] + args)[1..] == args;
    assert Substitute(p + "?" + rest, [a] + args) == Substitute(p + Literal(a) + rest, args);
    SubstituteSkipsPrefix(p + Literal(a), rest, args);
  }

  /**
   * How one argument is displayed, whatever its text: strings and byte
   * slices between single quotes, anything else as its `%v` text.
   */
  lemma RenderedLiteral(t: string)
    ensures Substitute("?", [PString(t)]) == "'" + t + "'"
    ensures Substitute("?", [PBytes(t)]) == "'" + t + "'"
    ensures Substitute("?", [POther(t)]) == t
  {
    var q := "?";
    forall a | a in [PString(t), PBytes(t), POther(t)]
      ensures Substitute(q, [a]) == Literal(a)
    {
      ReplaceFirstAtHead(q, '?', Literal(a));
      assert q[1..] == [];
      assert [a][1..] == [];
    }
  }

  /**
   * The first-marker quirk in general: when the first argument's literal
   * itself holds a `?`, the second argument replaces that `?` inside the
   * literal, not the template's next marker.
   */
  lemma MarkerInsideLiteral(p: string, a: Param, b: Param, rest: string, args: seq<Param>)
    requires '?' !in p && '?' in Literal(a)
    ensures Substitute(p + "?" + rest, [a, b] + args) ==
            Substitute(p + ReplaceFirst(Literal(a), '?', Literal(b)) + rest, args)
  {
    var la, lb := Literal(a), Literal(b);
    assert ([a, b] + args)[0] == a && ([a, b] + args)[1..] == [b] + args;
    assert ([b] + args)[0] == b && ([b] + args)[1..] == args;
    ReplaceMarkerAfterPrefix(p, la, rest);
    assert Substitute(p + "?" + rest, [a, b] + args) == Substitute(p + la + rest, [b] + args);
    assert Substitute(p + la + rest, [b] + args) == Substitute(ReplaceFirst(p + la + rest, '?', lb), args);
    ReplaceFirstInMiddle(p, la, rest, '?', lb);
  }

  /** Tabs deleted and newlines turned into spaces: every character kept is a space or one of the input's. */
  function OneLine(s: string): (r: string)
    ensures '\t' !in r && '\n' !in r
    ensures forall x :: x in r ==> x == ' ' || x in s
  {
    ReplaceAll(DeleteAll(s, '\t'), '\n', ' ')
  }

  /**
   * The clean-up applied after substitution: the string made one line, then
   * surrounding spaces trimmed. Every character kept is a space or a
   * character of the input.
   */
  function Tidy(s: string): (r: string)
    ensures '\t' !in r && '\n' !in r
    ensures r == [] || (r[0] != ' ' && r[|r| - 1] != ' ')
    ensures forall x :: x in r ==> x == ' ' || x in s
  {
    Trim(OneLine(s), ' ')
  }

  /** `queryString(query, args)`, given what `sqlx.Named(query, args)` returned. */
  function QueryString(named: Result<Bound, Cause>): (r: string)
    ensures named.Err? ==> r == named.error.message
    ensures named.Ok? ==> '\t' !in r && '\n' !in r
    ensures named.Ok? ==> r == [] || (r[0] != ' ' && r[|r| - 1] != ' ')
  {
    match named
    case Err(e) => e.message
    case Ok(b) => Tidy(Substitute(b.query, b.args))
  }

  /**
   * With literals free of `?` and at least as many markers as arguments,
   * each argument consumes exactly one marker.
   */
  lemma {:induction false} SubstituteConsumesMarkers(q: string, args: seq<Param>)
    requires forall i :: 0 <= i < |args| ==> '?' !in Literal(args[i])
    requires Count(q, '?') >= |args|
    ensures Count(Substitute(q, args), '?') == Count(q, '?') - |args|
    decreases |args|
  {
    if args != [] {
      CountPositive(q, '?');
      ReplaceFirstCount(q, '?', Literal(args[0]));
      CountPositive(Literal(args[0]), '?');
      SubstituteConsumesMarkers(ReplaceFirst(q, '?', Literal(args[0])), args[1..]);
    }
  }

  /**
   * When binding succeeds with one argument per marker and no literal
   * contains `?`, the rendered string has no unresolved marker left.
   */
  lemma RenderResolvesAllMarkers(b: Bound)
    requires forall i :: 0 <= i < |b.args| ==> '?' !in Literal(b.args[i])
    requires Count(b.query, '?') == |b.args|
    ensures '?' !in QueryString(Ok(b))
  {
    var s := Substitute(b.query, b.args);
    SubstituteConsumesMarkers(b.query, b.args);
    CountPositive(s, '?');
  }

  /** A template already on one clean line with no arguments is displayed as is. */
  lemma CleanTemplateUnchanged(q: string)
    requires '\t' !in q && '\n' !in q
    requires q == [] || (q[0] != ' ' && q[|q| - 1] != ' ')
    ensures QueryString(Ok(Bound(q, []))) == q
  {
    var oneLine := ReplaceAll(q, '\n', ' ');
    assert oneLine == q;
    if q != [] {
      assert TrimLeft(q, ' ') == q;
      assert TrimRight(q, ' ') == q;
    }
  }

  /**
   * The substitution quirk kept from the source: a `?` inside the first
   * string argument is taken by the second argument, and the template's
   * second marker survives.
   */
  lemma MarkerInsideValueIsReplaced()
    ensures Substitute("?,?", [PString("?"), POther("1")]) == "'1',?"
  {
    ReplaceFirstAtHead("?,?", '?', "'?'");
    var q1 := ReplaceFirst("?,?", '?', "'?'");
    assert q1 == "'?',?";
    ReplaceFirstPastHead(q1, '?', "1");
    ReplaceFirstAtHead(q1[1..], '?', "1");
    assert ReplaceFirst(q1, '?', "1") == "'1',?";
    var args := [PString("?"), POther("1")];
    assert Literal(args[0]) == "'?'" && args[1..] == [POther("1")];
    assert Substitute("?,?", args) == Substitute(q1, [POther("1")]);
    assert Literal(POther("1")) == "1" && [POther("1")][1..] == [];
  }
}

=== FILE: statuswriter.dfy ===
/**
 * `StatusRecorder` of services/publisher/pkg/statuswriter/statuswriter.go:
 * a wrapper around a response writer that records the first status code and
 * counts explicit header writes, logging superfluous status writes.
 */
module StatusWriter {
  import opened Wrappers
  import opened HttpWriter

  /** A line the recorder sends to its logger. */
  datatype LogLine =
    | Superfluous(newStatus: int, previousStatus: int)   // "Superfluous WriteHeader call"
    | HeaderSet(key: string, values: seq<string>)         // "Header set"

  /** The recorder's fields, the writer it wraps and what it has logged. */
  datatype Recorder = Recorder(w: Writer, status: int, headerWrites: int, logs: seq<LogLine>)

  /** A fresh recorder around `w`, as the response-writer middleware builds it. */
  function Fresh(w: Writer): Recorder
  {
    Recorder(w, 0, 0, [])
  }

  /**
   * `WriteHeader(code)`: while no status is recorded, record `code` and
   * forward it; afterwards only log the superfluous call.
   */
  function WriteHeader(r: Recorder, code: int): (r': Recorder)
    ensures r'.headerWrites == r.headerWrites && r'.w.header == r.w.header
    ensures r.status == 0 ==>
              r'.status == code && r'.w.sent == r.w.sent + [WroteHeader(code, r.w.header)] && r'.logs == r.logs
    ensures r.status != 0 ==>
              r'.status == r.status && r'.w == r.w && r'.logs == r.logs + [Superfluous(code, r.status)]
  {
    if r.status != 0 then r.(logs := r.logs + [Superfluous(code, r.status)])
    else r.(status := code, w := r.w.(sent := r.w.sent + [WroteHeader(code, r.w.header)]))
  }

  /** The recorder after a call together with the header map the call returned. */
  datatype HeaderView = HeaderView(rec: Recorder, header: Header)

  /** `Header()`: hands out the underlying header map and touches nothing. */
  function GetHeader(r: Recorder): (v: HeaderView)
    ensures v.rec.status == r.status && v.rec.headerWrites == r.headerWrites
    ensures v.rec.w == r.w && v.rec.logs == r.logs
    ensures v.header == r.w.header
  {
    HeaderView(r, r.w.header)
  }

  /** The recorder after `Write` and what `Write` returned. */
  datatype WriteOutcome = WriteOutcome(rec: Recorder, n: nat, err: Option<string>)

  /**
   * `Write(b)`: an unset status becomes 200, an earlier one is kept; the
   * bytes are forwarded unchanged and the underlying result `res` returned.
   */
  function Write(r: Recorder, b: Bytes, res: WriteResult): (o: WriteOutcome)
    ensures o.rec.status == (if r.status == 0 then 200 else r.status)
    ensures o.rec.w.sent == r.w.sent + [WroteBody(b)] && o.rec.w.header == r.w.header
    ensures o.rec.headerWrites == r.headerWrites && o.rec.logs == r.logs
    ensures o.n == res.n && o.err == res.err
  {
    var status := if r.status == 0 then 200 else r.status;
    WriteOutcome(r.(status := status, w := r.w.(sent := r.w.sent + [WroteBody(b)])), res.n, res.err)
  }

  /**
   * `SetHeader(key, values)`: one header write however many values, each
   * value added under `key` in order, and one log line.
   */
  function SetHeader(r: Recorder, key: string, values: seq<string>): (r': Recorder)
    ensures r'.headerWrites == r.headerWrites + 1
    ensures Values(r'.w.header, key) == Values(r.w.header, key) + values
    ensures forall k :: k != key ==> Values(r'.w.header, k) == Values(r.w.header, k)
    ensures r'.status == r.status && r'.w.sent == r.w.sent
    ensures r'.logs == r.logs + [HeaderSet(key, values)]
  {
    r.(headerWrites := r.headerWrites + 1,
       logs := r.logs + [HeaderSet(key, values)],
       w := r.w.(header := AddValues(r.w.header, key, values)))
  }

  /** One method call on the recorder (the result of `Write` being `res`). */
  datatype Call =
    | CallWriteHeader(code: int)
    | CallHeader
    | CallWrite(data: Bytes, res: WriteResult)
    | CallSetHeader(key: string, values: seq<string>)

  function Step(r: Recorder, c: Call): Recorder
  {
    match c
    case CallWriteHeader(code) => WriteHeader(r, code)
    case CallHeader => GetHeader(r).rec
    case CallWrite(data, res) => Write(r, data, res).rec
    case CallSetHeader(key, values) => SetHeader(r, key, values)
  }

  /** The recorder after a sequence of calls. */
  function Run(r: Recorder, calls: seq<Call>): Recorder
    decreases |calls|
  {
    if calls == [] then r else Run(Step(r, calls[0]), calls[1..])
  }

  function SetHeaderCalls(calls: seq<Call>): nat
  {
    if calls == [] then 0 else (if calls[0].CallSetHeader? then 1 else 0) + SetHeaderCalls(calls[1..])
  }

  function WrittenBytes(calls: seq<Call>): Bytes
  {
    if calls == [] then [] else (if calls[0].CallWrite? then calls[0].data else []) + WrittenBytes(calls[1..])
  }

  /** The calls one recorder call forwards to the underlying writer. */
  function Forwarded(r: Recorder, c: Call): seq<Effect>
  {
    match c
    case CallWriteHeader(code) => if r.status == 0 then [WroteHeader(code, r.w.header)] else []
    case CallWrite(data, _) => [WroteBody(data)]
    case _ => []
  }

  /** The calls a sequence of recorder calls forwards, in order. */
  function ForwardedAll(r: Recorder, calls: seq<Call>): seq<Effect>
    decreases |calls|
  {
    if calls == [] then [] else Forwarded(r, calls[0]) + ForwardedAll(Step(r, calls[0]), calls[1..])
  }

  /** The underlying writer only ever receives appended calls: exactly the forwarded ones. */
  lemma {:induction false} RunAppendsForwarded(r: Recorder, calls: seq<Call>)
    ensures Run(r, calls).w.sent == r.w.sent + ForwardedAll(r, calls)
    decreases |calls|
  {
    if calls != [] {
      var r1 := Step(r, calls[0]);
      assert r1.w.sent == r.w.sent + Forwarded(r, calls[0]);
      RunAppendsForwarded(r1, calls[1..]);
    }
  }

  /** What one call forwards in status lines, and the status it leaves. */
  lemma StepStatus(r: Recorder, c: Call)
    ensures HeaderCodes(Forwarded(r, c)) == (if r.status == 0 && c.CallWriteHeader? then [c.code] else [])
    ensures r.status != 0 ==> Step(r, c).status == r.status
    ensures r.status == 0 && c.CallWriteHeader? ==> Step(r, c).status == c.code
  {
  }

  /** Once a status is recorded it never changes and no further status is forwarded. */
  lemma {:induction false} StatusSticky(r: Recorder, calls: seq<Call>)
    requires r.status != 0
    ensures Run(r, calls).status == r.status
    ensures HeaderCodes(ForwardedAll(r, calls)) == []
    decreases |calls|
  {
    if calls != [] {
      var r1 := Step(r, calls[0]);
      StepStatus(r, calls[0]);
      StatusSticky(r1, calls[1..]);
      HeaderCodesAppend(Forwarded(r, calls[0]), ForwardedAll(r1, calls[1..]));
    }
  }

  /** Every forwarded status but the last is 0. */
  predicate ZerosBeforeLast(codes: seq<int>)
  {
    forall i :: 0 <= i < |codes| - 1 ==> codes[i] == 0
  }

  /** A last forwarded status that is not 0 is the recorded one. */
  predicate LastRecorded(codes: seq<int>, status: int)
  {
    codes != [] && codes[|codes| - 1] != 0 ==> status == codes[|codes| - 1]
  }

  /** A forwarded 0 in front keeps both properties. */
  lemma ZeroInFront(codes: seq<int>, status: int)
    requires ZerosBeforeLast(codes) && LastRecorded(codes, status)
    ensures ZerosBeforeLast([0] + codes) && LastRecorded([0] + codes, status)
  {
    assert forall i :: 1 <= i < |[0] + codes| ==> ([0] + codes)[i] == codes[i - 1];
  }

  /**
   * Over any sequence of calls: once a status is recorded it never changes
   * and no further status is forwarded; from an unset status, every
   * forwarded status but the last is 0 (recording 0 leaves the recorder
   * unset), and a last one that is not 0 is the status finally recorded.
   */
  lemma {:induction false} StatusIsFirstWins(r: Recorder, calls: seq<Call>)
    ensures r.status != 0 ==> Run(r, calls).status == r.status
    ensures r.status != 0 ==> HeaderCodes(ForwardedAll(r, calls)) == []
    ensures ZerosBeforeLast(HeaderCodes(ForwardedAll(r, calls)))
    ensures LastRecorded(HeaderCodes(ForwardedAll(r, calls)), Run(r, calls).status)
    decreases |calls|
  {
    if r.status != 0 {
      StatusSticky(r, calls);
    } else if calls != [] {
      var r1 := Step(r, calls[0]);
      StepStatus(r, calls[0]);
      HeaderCodesAppend(Forwarded(r, calls[0]), ForwardedAll(r1, calls[1..]));
      assert Run(r, calls) == Run(r1, calls[1..]);
      var rest := HeaderCodes(ForwardedAll(r1, calls[1..]));
      assert HeaderCodes(ForwardedAll(r, calls)) == HeaderCodes(Forwarded(r, calls[0])) + rest;
      if r1.status != 0 {
        StatusSticky(r1, calls[1..]);
      } else {
        StatusIsFirstWins(r1, calls[1..]);
        if calls[0].CallWriteHeader? {
          ZeroInFront(rest, Run(r1, calls[1..]).status);
        }
      }
    }
  }

  /** Every `SetHeader` call, and nothing else, counts as one header write. */
  lemma {:induction false} HeaderWritesCountSetHeader(r: Recorder, calls: seq<Call>)
    ensures Run(r, calls).headerWrites == r.headerWrites + SetHeaderCalls(calls)
    decreases |calls|
  {
    if calls != [] {
      HeaderWritesCountSetHeader(Step(r, calls[0]), calls[1..]);
    }
  }

  /**
   * What the response-writer middleware reports for a recorder it built
   * fresh around `w`, after the handler's calls: `HeaderWrites` is the number
   * of `SetHeader` calls, the status is the last one forwarded when that is
   * not 0, every earlier forwarded status is 0, and the writer received
   * exactly the forwarded calls, its body being the bytes written.
   */
  lemma FreshRecorderReport(w: Writer, calls: seq<Call>)
    ensures Run(Fresh(w), calls).headerWrites == SetHeaderCalls(calls)
    ensures ZerosBeforeLast(HeaderCodes(ForwardedAll(Fresh(w), calls)))
    ensures LastRecorded(HeaderCodes(ForwardedAll(Fresh(w), calls)), Run(Fresh(w), calls).status)
    ensures Run(Fresh(w), calls).w.sent == w.sent + ForwardedAll(Fresh(w), calls)
    ensures Body(Run(Fresh(w), calls).w.sent) == Body(w.sent) + WrittenBytes(calls)
  {
    HeaderWritesCountSetHeader(Fresh(w), calls);
    StatusIsFirstWins(Fresh(w), calls);
    RunAppendsForwarded(Fresh(w), calls);
    BodyForwardedUnchanged(Fresh(w), calls);
  }

  /** The body the underlying writer receives is exactly the bytes passed to `Write`, in order. */
  lemma {:induction false} BodyForwardedUnchanged(r: Recorder, calls: seq<Call>)
    ensures Body(Run(r, calls).w.sent) == Body(r.w.sent) + WrittenBytes(calls)
    decreases |calls|
  {
    if calls != [] {
      var r1 := Step(r, calls[0]);
      BodyForwardedUnchanged(r1, calls[1..]);
      var e1 := Forwarded(r, calls[0]);
      assert r1.w.sent == r.w.sent + e1;
      BodyAppend(r.w.sent, e1);
      assert Body(e1) == (if calls[0].CallWrite? then calls[0].data else []);
    }
  }
}

=== FILE: text.dfy ===
/**
 * The handful of Go `strings` operations the modelled code relies on, over
 * `string` = `seq<char>`. Each is defined recursively and specified by an
 * independent, non-recursive description of its result.
 */
module Text {

  /** Number of occurrences of `c` in `s`. */
  function Count(s: string, c: char): nat
  {
    if s == [] then 0 else (if s[0] == c then 1 else 0) + Count(s[1..], c)
  }

  lemma {:induction false} CountConcat(a: string, b: string, c: char)
    ensures Count(a + b, c) == Count(a, c) + Count(b, c)
  {
    if a == [] {
      assert a + b == b;
    } else {
      assert (a + b)[1..] == a[1..] + b;
      CountConcat(a[1..], b, c);
    }
  }

  lemma {:induction false} CountPositive(s: string, c: char)
    ensures c in s <==> Count(s, c) > 0
  {
    if s != [] {
      CountPositive(s[1..], c);
      assert s == [s[0]] + s[1..];
    }
  }

  /** Index of the first `c` in `s` (Go's `strings.Index` with a one-character needle). */
  function FirstIndex(s: string, c: char): (i: nat)
    requires c in s
    ensures i < |s| && s[i] == c
    ensures c !in s[..i]
  {
    if s[0] == c then 0
    else
      var j := FirstIndex(s[1..], c);
      assert s[..j + 1] == [s[0]] + s[1..][..j];
      j + 1
  }

  /**
   * `strings.Replace(s, string(c), v, 1)`: the first `c` of `s`, if any, is
   * replaced by `v`; nothing else changes.
   */
  function ReplaceFirst(s: string, c: char, v: string): (r: string)
    ensures c !in s ==> r == s
    ensures c in s ==> r == s[..FirstIndex(s, c)] + v + s[FirstIndex(s, c) + 1..]
  {
    if s == [] then s
    else if s[0] == c then v + s[1..]
    else
      var rest := ReplaceFirst(s[1..], c, v);
      assert c in s[1..] ==> s[1..][..FirstIndex(s[1..], c)] == s[1..FirstIndex(s, c)];
      [s[0]] + rest
  }

  /** A `c` at the head is the one replaced. */
  lemma ReplaceFirstAtHead(s: string, c: char, v: string)
    requires s != [] && s[0] == c
    ensures ReplaceFirst(s, c, v) == v + s[1..]
  {
  }

  /** Any other head is kept and the search goes on in the tail. */
  lemma ReplaceFirstPastHead(s: string, c: char, v: string)
    requires s != [] && s[0] != c
    ensures ReplaceFirst(s, c, v) == [s[0]] + ReplaceFirst(s[1..], c, v)
  {
  }

  /** A prefix free of `c` is passed over untouched. */
  lemma {:induction false} ReplaceFirstSkipsPrefix(p: string, y: string, c: char, v: string)
    requires c !in p
    ensures ReplaceFirst(p + y, c, v) == p + ReplaceFirst(y, c, v)
  {
    if p == [] {
      assert p + y == y;
    } else {
      var s := p + y;
      assert s[0] == p[0] && s[1..] == p[1..] + y;
      ReplaceFirstPastHead(s, c, v);
      ReplaceFirstSkipsPrefix(p[1..], y, c, v);
      ConsTail(p, ReplaceFirst(y, c, v));
    }
  }

  /** When `x` holds a `c`, the replacement happens inside `x` and `y` is kept. */
  lemma {:induction false} ReplaceFirstInPrefix(x: string, y: string, c: char, v: string)
    requires c in x
    ensures ReplaceFirst(x + y, c, v) == ReplaceFirst(x, c, v) + y
  {
    var s := x + y;
    assert s[0] == x[0] && s[1..] == x[1..] + y;
    if x[0] == c {
      ReplaceFirstAtHead(s, c, v);
      ReplaceFirstAtHead(x, c, v);
      Regroup(v, x[1..], y);
    } else {
      assert c in x[1..] by {
        assert x == [x[0]] + x[1..];
      }
      ReplaceFirstPastHead(s, c, v);
      ReplaceFirstPastHead(x, c, v);
      ReplaceFirstInPrefix(x[1..], y, c, v);
      Regroup([x[0]], ReplaceFirst(x[1..], c, v), y);
    }
  }

  /** Concatenation regrouped. */
  lemma Regroup(a: string, b: string, c: string)
    ensures a + (b + c) == (a + b) + c
  {
  }

  /** Between a `c`-free prefix and any suffix, the first `c` of `x` is the one replaced. */
  lemma ReplaceFirstInMiddle(p: string, x: string, y: string, c: char, v: string)
    requires c !in p && c in x
    ensures ReplaceFirst(p + x + y, c, v) == p + ReplaceFirst(x, c, v) + y
  {
    Regroup(p, x, y);
    ReplaceFirstSkipsPrefix(p, x + y, c, v);
    ReplaceFirstInPrefix(x, y, c, v);
    Regroup(p, ReplaceFirst(x, c, v), y);
  }

  /** The first `?` after a `?`-free prefix is the one replaced. */
  lemma ReplaceMarkerAfterPrefix(p: string, v: string, rest: string)
    requires '?' !in p
    ensures ReplaceFirst(p + "?" + rest, '?', v) == p + v + rest
  {
    assert p + "?" + rest == p + ("?" + rest);
    ReplaceFirstSkipsPrefix(p, "?" + rest, '?', v);
    ReplaceFirstAtHead("?" + rest, '?', v);
    assert ("?" + rest)[1..] == rest;
  }

  /** A non-empty string is its head followed by its tail. */
  lemma ConsTail(p: string, t: string)
    requires p != []
    ensures [p[0]] + (p[1..] + t) == p + t
  {
    assert p == [p[0]] + p[1..];
  }

  /** Replacing one `c` by `v` removes one `c` and adds those of `v`. */
  lemma ReplaceFirstCount(s: string, c: char, v: string)
    requires c in s
    ensures Count(ReplaceFirst(s, c, v), c) == Count(s, c) - 1 + Count(v, c)
  {
    var i := FirstIndex(s, c);
    assert s == s[..i] + [s[i]] + s[i + 1..];
    CountConcat(s[..i] + [s[i]], s[i + 1..], c);
    CountConcat(s[..i], [s[i]], c);
    CountConcat(s[..i] + v, s[i + 1..], c);
    CountConcat(s[..i], v, c);
    CountPositive(s[..i], c);
  }

  /** `strings.ReplaceAll(s, string(c), "")`: every `c` is deleted, the rest keeps its order. */
  function DeleteAll(s: string, c: char): (r: string)
    ensures c !in r
    ensures multiset(r) == multiset(s)[c := 0]
    ensures forall x :: x in r ==> x in s
    ensures c !in s ==> r == s
  {
    if s == [] then s
    else
      assert s == [s[0]] + s[1..];
      if s[0] == c then DeleteAll(s[1..], c) else [s[0]] + DeleteAll(s[1..], c)
  }

  /** Deletion works piecewise, so the characters kept stay in their order. */
  lemma {:induction false} DeleteAllConcat(a: string, b: string, c: char)
    ensures DeleteAll(a + b, c) == DeleteAll(a, c) + DeleteAll(b, c)
  {
    if a == [] {
      assert a + b == b;
    } else {
      assert (a + b)[0] == a[0] && (a + b)[1..] == a[1..] + b;
      DeleteAllConcat(a[1..], b, c);
    }
  }

  /** `strings.ReplaceAll(s, string(c), string(d))`: a character-by-character substitution. */
  function ReplaceAll(s: string, c: char, d: char): (r: string)
    ensures |r| == |s|
    ensures forall i :: 0 <= i < |s| ==> r[i] == (if s[i] == c then d else s[i])
    ensures forall x :: x in r ==> x == d || (x in s && x != c)
  {
    if s == [] then s
    else [if s[0] == c then d else s[0]] + ReplaceAll(s[1..], c, d)
  }

  /** `strings.TrimLeft(s, string(c))`: the longest suffix of `s` not starting with `c`. */
  function TrimLeft(s: string, c: char): (r: string)
    ensures |r| <= |s| && r == s[|s| - |r|..]
    ensures forall i :: 0 <= i < |s| - |r| ==> s[i] == c
    ensures r == [] || r[0] != c
  {
    if s != [] && s[0] == c then TrimLeft(s[1..], c) else s
  }

  /** `strings.TrimRight(s, string(c))`: the longest prefix of `s` not ending with `c`. */
  function TrimRight(s: string, c: char): (r: string)
    ensures |r| <= |s| && r == s[..|r|]
    ensures forall i :: |r| <= i < |s| ==> s[i] == c
    ensures r == [] || r[|r| - 1] != c
  {
    if s != [] && s[|s| - 1] == c then TrimRight(s[..|s| - 1], c) else s
  }

  /** Where the result of `Trim(s, c)` starts inside `s`. */
  function TrimStart(s: string, c: char): nat
  {
    |s| - |TrimLeft(s, c)|
  }

  /**
   * `strings.Trim(s, string(c))`: `s` with every leading and trailing `c`
   * removed. The result neither starts nor ends with `c` and holds only
   * characters of `s`; `TrimSlice` and `TrimCutsOnly` show that it is the
   * slice of `s` from `TrimStart(s, c)` and that only `c` is cut off.
   */
  function Trim(s: string, c: char): (r: string)
    ensures r == [] || (r[0] != c && r[|r| - 1] != c)
    ensures forall x :: x in r ==> x in s
  {
    var l := TrimLeft(s, c);
    var r := TrimRight(l, c);
    PrefixOfSuffix(s, TrimStart(s, c), r);
    SliceMembers(s, TrimStart(s, c), TrimStart(s, c) + |r|);
    r
  }

  /** A prefix of the suffix from `start` is the slice of `s` from `start`. */
  lemma PrefixOfSuffix(s: string, start: nat, r: string)
    requires start <= |s|
    requires |r| <= |s| - start && r == s[start..][..|r|]
    ensures start + |r| <= |s| && r == s[start..start + |r|]
  {
  }

  /** The result of `Trim` is the slice of `s` starting at `TrimStart(s, c)`. */
  lemma TrimSlice(s: string, c: char)
    ensures TrimStart(s, c) + |Trim(s, c)| <= |s|
    ensures Trim(s, c) == s[TrimStart(s, c)..TrimStart(s, c) + |Trim(s, c)|]
  {
    PrefixOfSuffix(s, TrimStart(s, c), TrimRight(TrimLeft(s, c), c));
  }

  /** Everything `Trim` cuts off, on either side, is `c`. */
  lemma TrimCutsOnly(s: string, c: char)
    ensures forall i :: 0 <= i < TrimStart(s, c) ==> s[i] == c
    ensures forall i :: TrimStart(s, c) + |Trim(s, c)| <= i < |s| ==> s[i] == c
  {
    var start := TrimStart(s, c);
    var l := TrimLeft(s, c);
    var r := Trim(s, c);
    TrimSlice(s, c);
    assert r == TrimRight(l, c);
    forall i | start + |r| <= i < |s|
      ensures s[i] == c
    {
      assert s[i] == l[i - start];
    }
  }

  /** A slice holds only characters of the whole. */
  lemma SliceMembers(s: string, lo: nat, hi: nat)
    requires lo <= hi <= |s|
    ensures forall x :: x in s[lo..hi] ==> x in s
  {
    forall x | x in s[lo..hi]
      ensures x in s
    {
      var i :| 0 <= i < hi - lo && s[lo..hi][i] == x;
      assert s[lo + i] == x;
    }
  }

  /** ASCII lower-casing of one character. */
  function LowerChar(ch: char): char
  {
    if 'A' <= ch <= 'Z' then (ch as int - 'A' as int + 'a' as int) as char else ch
  }

  /** `strings.ToLower`, restricted to ASCII letters. */
  function ToLower(s: string): (r: string)
    ensures |r| == |s|
    ensures forall i :: 0 <= i < |s| ==> r[i] == LowerChar(s[i])
  {
    if s == [] then s else [LowerChar(s[0])] + ToLower(s[1..])
  }

  /** The concatenation of a sequence of strings (what a `strings.Builder` accumulates). */
  function Concat(parts: seq<string>): string
  {
    if parts == [] then "" else parts[0] + Concat(parts[1..])
  }
}

=== FILE: webresponse.dfy ===
/**
 * services/publisher/pkg/web/response.go: its own `StatusRecorder`, which
 * counts every `Header()` call and keeps the first status, and `Respond`,
 * which sends a value as JSON through a fresh recorder. JSON marshalling is
 * an oracle whose result is an input.
 */
module WebResponse {
  import opened Wrappers
  import opened HttpWriter

  /** This recorder has no `Write` of its own: writes go straight to `w`. */
  datatype Recorder = Recorder(w: Writer, status: int, headerWrites: int)

  /** `WriteHeader(code)`: first call wins, later calls neither record nor forward. */
  function WriteHeader(r: Recorder, code: int): (r': Recorder)
    ensures r'.headerWrites == r.headerWrites && r'.w.header == r.w.header
    ensures r.status == 0 ==> r'.status == code && r'.w.sent == r.w.sent + [WroteHeader(code, r.w.header)]
    ensures r.status != 0 ==> r' == r
  {
    if r.status != 0 then r
    else r.(status := code, w := r.w.(sent := r.w.sent + [WroteHeader(code, r.w.header)]))
  }

  /** The recorder after `Header()` together with the header map it returned. */
  datatype HeaderView = HeaderView(rec: Recorder, header: Header)

  /** `Header()`: every call counts as a header write, whatever the caller does with the map. */
  function GetHeader(r: Recorder): (v: HeaderView)
    ensures v.rec.headerWrites == r.headerWrites + 1
    ensures v.rec.status == r.status && v.rec.w == r.w
    ensures v.header == r.w.header
  {
    HeaderView(r.(headerWrites := r.headerWrites + 1), r.w.header)
  }

  /** One call on the recorder. */
  datatype Call = CallWriteHeader(code: int) | CallHeader

  function Run(r: Recorder, calls: seq<Call>): Recorder
    decreases |calls|
  {
    if calls == [] then r
    else
      var r1 := match calls[0]
        case CallWriteHeader(code) => WriteHeader(r, code)
        case CallHeader => GetHeader(r).rec;
      Run(r1, calls[1..])
  }

  function HeaderCalls(calls: seq<Call>): nat
  {
    if calls == [] then 0 else (if calls[0].CallHeader? then 1 else 0) + HeaderCalls(calls[1..])
  }

  /** The status each `WriteHeader` in `calls` would record, in order. */
  function StatusCodes(calls: seq<Call>): seq<int>
  {
    if calls == [] then [] else (if calls[0].CallWriteHeader? then [calls[0].code] else []) + StatusCodes(calls[1..])
  }

  /**
   * Over any sequence of calls: `HeaderWrites` counts the `Header()` calls;
   * a recorded status never changes and nothing more is forwarded; from an
   * unset status the final status is the first non-zero code passed, and the
   * forwarded codes are those passed up to and including it.
   */
  lemma {:induction false} RecorderInvariants(r: Recorder, calls: seq<Call>)
    ensures Run(r, calls).headerWrites == r.headerWrites + HeaderCalls(calls)
    ensures Run(r, calls).w.header == r.w.header
    ensures r.status != 0 ==> Run(r, calls).status == r.status && Run(r, calls).w == r.w
    ensures r.status == 0 ==> Run(r, calls).status == FirstNonZero(StatusCodes(calls))
    ensures r.status == 0 ==> Run(r, calls).w.sent == r.w.sent + Sent(UpToFirstNonZero(StatusCodes(calls)), r.w.header)
    decreases |calls|
  {
    if calls != [] {
      var r1 := match calls[0]
        case CallWriteHeader(code) => WriteHeader(r, code)
        case CallHeader => GetHeader(r).rec;
      RecorderInvariants(r1, calls[1..]);
      assert Run(r, calls) == Run(r1, calls[1..]);
      assert StatusCodes(calls) == (if calls[0].CallWriteHeader? then [calls[0].code] else []) + StatusCodes(calls[1..]);
      var codes := StatusCodes(calls[1..]);
      if r.status == 0 && calls[0].CallWriteHeader? {
        var k := calls[0].code;
        assert ([k] + codes)[1..] == codes;
        if k == 0 {
          assert FirstNonZero([k] + codes) == FirstNonZero(codes);
          assert UpToFirstNonZero([k] + codes) == [0] + UpToFirstNonZero(codes);
          assert Sent([0] + UpToFirstNonZero(codes), r.w.header) == [WroteHeader(0, r.w.header)] + Sent(UpToFirstNonZero(codes), r.w.header);
        } else {
          assert FirstNonZero([k] + codes) == k;
          assert UpToFirstNonZero([k] + codes) == [k];
          assert Sent([k], r.w.header) == [WroteHeader(k, r.w.header)];
        }
      } else if calls[0].CallHeader? {
        assert StatusCodes(calls) == codes;
      }
    }
  }

  /** The first non-zero code, or 0 when there is none. */
  function FirstNonZero(codes: seq<int>): int
  {
    if codes == [] then 0 else if codes[0] != 0 then codes[0] else FirstNonZero(codes[1..])
  }

  /** The codes up to and including the first non-zero one. */
  function UpToFirstNonZero(codes: seq<int>): seq<int>
  {
    if codes == [] then [] else if codes[0] != 0 then [codes[0]] else [0] + UpToFirstNonZero(codes[1..])
  }

  /** Status lines forwarded for a list of codes, each with the header map `header`. */
  function Sent(codes: seq<int>, header: Header): seq<Effect>
  {
    if codes == [] then [] else [WroteHeader(codes[0], header)] + Sent(codes[1..], header)
  }

  /** What `Respond` returned and the state its recorder ended in. */
  datatype RespondOutcome = RespondOutcome(err: Option<string>, rec: Recorder)

  const NoContent: int := 204

  /**
   * `Respond(ctx, w, data, statusCode)`. `marshalled` is `json.Marshal(data)`
   * and `written` what `w.Write` returns for the marshalled bytes.
   */
  function Respond(w: Writer, statusCode: int, marshalled: Result<Bytes, string>, written: WriteResult)
    : (o: RespondOutcome)
    ensures statusCode == 204 ==>
              o.err.None? && o.rec.status == 204 && o.rec.headerWrites == 0 &&
              o.rec.w == w.(sent := w.sent + [WroteHeader(204, w.header)])
    ensures statusCode != 204 && marshalled.Err? ==>
              o.err == Some(marshalled.error) && o.rec.w == w && o.rec.status == 0 && o.rec.headerWrites == 0
    ensures statusCode != 204 && marshalled.Ok? ==>
              && o.err == written.err
              && o.rec.status == statusCode && o.rec.headerWrites == 1
              && Values(o.rec.w.header, "Content-Type") == ["application/json"]
              && (forall k :: k != "Content-Type" ==> Values(o.rec.w.header, k) == Values(w.header, k))
              && o.rec.w.sent == w.sent + [WroteHeader(statusCode, o.rec.w.header), WroteBody(marshalled.value)]
  {
    var recorder := Recorder(w, 0, 0);
    if statusCode == NoContent then RespondOutcome(None, WriteHeader(recorder, statusCode))
    else
      match marshalled
      case Err(e) => RespondOutcome(Some(e), recorder)
      case Ok(body) =>
        var view := GetHeader(recorder);
        var withType := view.rec.(w := view.rec.w.(header := SetValue(view.header, "Content-Type", "application/json")));
        var headed := WriteHeader(withType, statusCode);
        var sent := headed.(w := headed.w.(sent := headed.w.sent + [WroteBody(body)]));
        RespondOutcome(written.err, sent)
  }

  /** The 204 path neither marshals nor writes: its outcome ignores both oracles. */
  lemma NoContentIgnoresBody(w: Writer, m1: Result<Bytes, string>, m2: Result<Bytes, string>,
                             r1: WriteResult, r2: WriteResult)
    ensures Respond(w, NoContent, m1, r1) == Respond(w, NoContent, m2, r2)
    ensures Body(Respond(w, NoContent, m1, r1).rec.w.sent) == Body(w.sent)
  {
    BodyAppend(w.sent, [WroteHeader(204, w.header)]);
  }
}

=== FILE: wrappers.dfy ===
/** Optional values and results shared by every module of the model. */
module Wrappers {

  /** A value that may be absent; Go's nil error is `None`. */
  datatype Option<+T> = None | Some(value: T)

  /** The outcome of an operation that either yields a value or fails with an error. */
  datatype Result<+T, +E> = Ok(value: T) | Err(error: E)
}
